=== FILE: README.md ===
# Smart cart backend, modelled in Dafny

This project models the three pieces of logic at the core of a smart
shopping-cart backend:

- **The cart tracker** (`backend/webcam.py`). A camera loop runs an object
  detector on every frame. Per detection label it keeps a frame counter, the
  last vertical box centre, an accumulated direction score, and the largest box
  seen with its crop. It also keeps the set of labels believed to be in the
  cart. A label seen for at least `FRAME_THRESHOLD` (10) frames in a row whose
  centre has moved down by more than `DIRECTION_THRESHOLD` (30) pixels is
  *added*. One that has moved up by more than 30 pixels while in the cart is
  *removed*.
- **The Firestore cart manager** (`backend/firebase.py`). It creates cart
  documents, maps labels to products, and appends and removes cart items while
  keeping running totals. It also builds the Storage path, content type and
  download URL of an uploaded crop.
- **The Flask service** (`backend/app.py`). It creates shopping sessions with
  short-lived pairing tokens and pairs a phone to a session. It also keeps
  the per-session inventory of scanned barcodes with its total, and maintains
  the barcode price catalogue.

Files:

| file | module | contents |
|---|---|---|
| `common.dfy` | `Common` | `Option`, the `defaultdict(int)` lookup, and Python's `str.lower`, `str.title`, `str.endswith`, slicing and truthiness (ASCII only) |
| `webcam_frame.dfy` | `FrameStep` | one frame of the tracker as pure functions, in source order: box scan, reset, count, threshold test; lemmas about one frame |
| `webcam_history.dfy` | `TrackHistory` | what the tracker's maps mean in terms of all frames so far (run length, displacement since the run started, largest area ever seen), and the invariant that ties them together |
| `webcam.dfy` | `Webcam` | class `CartTracker`, whose fields are the module-level maps and set and whose `ProcessFrame` method runs the source's loops, proved equal to the pure step |
| `firebase.dfy` | `FirebaseCart` | the product table, string building for uploads, cart records, and the `CartStore` class over in-memory carts and blobs |
| `app.dfy` | `Backend` | token validity, the two error ladders, inventory-line operations and totals, and the `Service` class over the sessions, inventory and prices maps |

Conventions: money is integer cents and times are integer microseconds. The
clock, random tokens, uuid hex strings, the local file system and the URL
encoder are parameters. A Firestore `update` or a Mongo `update_one` that
matches no document is modelled by its observable outcome: an exception
(`None`/`false` here) for Firestore, and a status code for the Flask
handlers.

The threshold test in `webcam.py` (lines 75-91) sits after the counting loop
rather than inside it. It therefore reads whichever label that loop visited
last, and set iteration order is unspecified. The model makes that label a
parameter, `probe`, which is any detected label, or `None` when nothing
approved was detected (`FrameStep.ValidProbe`). `CartTracker.ProcessFrame`
picks it nondeterministically and returns it.

Three behaviours of the code are worth stating because a reader might
expect otherwise:

- A label's frame counter is never reset when an add or remove fires, so a
  label fires again only through the `confirmed` check.
- No check against a history of earlier detections gates an add: the
  counter, the direction score and `confirmed` decide alone.
- A Firestore cart item has no quantity, and `get_product_info` is the fixed
  nine-entry table with a title-case fallback.

## Model

| member | source | states |
|---|---|---|
| Common.Lower | backend/firebase.py:157 | `str.lower` keeps the length and lower-cases each character |
| Common.TitleFromKeepsLetters | backend/firebase.py:158 | `str.title` changes letter case only: lower-casing its result gives the lower-cased input |
| Common.Title | backend/firebase.py:158 | `str.title` keeps the length and the letters up to case; every uncased character is kept, and a cased one is upper-cased at the start or after an uncased character and lower-cased after a cased one |
| Common.TitleFromAt | backend/firebase.py:158 | character by character, the title form depends only on that character and whether the one before it is cased |
| Common.TitleOfCaseVariants | backend/firebase.py:158 | two texts equal up to letter case have the same title form |
| Common.Prefix | backend/app.py:67 | `s[:n]` is a prefix of `s` of length `min(len(s), n)` |
| FrameStep.Detected | backend/webcam.py:35-53 | `detected_this_frame` only ever holds approved labels |
| FrameStep.ScanBox | backend/webcam.py:38-61 | an unapproved box changes nothing; an approved box becomes its label's last centre and never lowers its best area; counters and `confirmed` are untouched |
| FrameStep.ScanBoxes | backend/webcam.py:37-61 | the whole box loop leaves the counters and `confirmed` as they were |
| FrameStep.Reset | backend/webcam.py:64-68 | every counted label absent from the frame ends at count 0 with no last centre, detected ones keep their count, the counted keys stay the same, and `confirmed` and the best crops are untouched |
| FrameStep.Bump | backend/webcam.py:71-72 | each detected label's count goes up by one (missing reads as 0), every other count stays, and the keys grow by exactly the detected labels |
| FrameStep.Decide | backend/webcam.py:75-91 | an event names the probed label and needs at least 10 counted frames; an add confirms a label not yet confirmed, a remove unconfirms a confirmed one; only `confirmed` changes, and nothing without an event |
| FrameStep.Step | backend/webcam.py:35-91 | for a valid probe an event names a label detected in this frame, and `confirmed` changes only with an event, by exactly its label |
| FrameStep.DetectedMeans | backend/webcam.py:37-53 | a label is detected iff it is approved and some box of the frame carries it |
| FrameStep.InitialWf | backend/webcam.py:17-24 | the empty initial maps are well formed (counts non-negative, a last centre exactly for labels with positive count, best crop and area together) |
| FrameStep.ScanBoxesFrame | backend/webcam.py:37-61 | the box loop changes neither the counters nor `confirmed`, and gives a last centre to exactly the detected labels |
| FrameStep.ScanBoxCenters | backend/webcam.py:55-61 | one box sets its own label's last centre and adds the move since the previous centre to its score; other labels are untouched |
| FrameStep.ScanBoxesCenters | backend/webcam.py:55-61 | over a frame the score deltas telescope: the score grows by the last centre minus the previous centre (or minus the first box's centre when there was none) |
| FrameStep.ScanBoxArea | backend/webcam.py:46-51 | one box replaces its label's best area and crop only when its area is strictly larger |
| FrameStep.ScanBoxesArea | backend/webcam.py:46-51 | after the box loop the best area is the maximum of the old best and the frame's areas; a changed crop is a box of this frame with that area |
| FrameStep.MaxAreaOfNone | backend/webcam.py:49-51 | a frame without boxes of a label leaves its best area as it was |
| FrameStep.MaxAreaOfGrows | backend/webcam.py:49-51 | the best area never decreases within a frame |
| FrameStep.ResetLabel | backend/webcam.py:63-68 | a counted label absent from the frame gets count 0, score 0 and no last centre; every other label, `confirmed` and the best crops are untouched |
| FrameStep.BumpLabel | backend/webcam.py:70-72 | the counting loop adds one to each detected label's count (missing reads as 0) and no other |
| FrameStep.DecideOnlyConfirms | backend/webcam.py:75-91 | the threshold test changes only `confirmed` |
| FrameStep.StepIsDecideCounted | backend/webcam.py:35-91 | a frame is the threshold test applied to the state after scan, reset and count; only `confirmed` differs from that state |
| FrameStep.StepLabelTrack | backend/webcam.py:37-72 | per label: a detected label's count goes up by one and its score takes in the frame's displacement; an undetected one ends with count 0, score 0 and no last centre |
| FrameStep.StepLabelBest | backend/webcam.py:46-68 | per label: the best area becomes the maximum over the frame; the reset does not clear best areas or crops |
| FrameStep.StepKeepsFrameKeys | backend/webcam.py:64-72 | counted labels stay counted; exactly the detected labels are added |
| FrameStep.StepKeepsWf | backend/webcam.py:35-91 | every frame keeps the tracker's maps well formed |
| FrameStep.UnapprovedUntouched | backend/webcam.py:38-41 | a label outside `APPROVED_LABELS` is never detected, its count stays 0, and its last centre, score, best area and crop never change |
| FrameStep.AbsentLabelsReset | backend/webcam.py:64-68 | after a frame, every counted label the frame did not show has count 0, score 0 and no last centre |
| FrameStep.BestCropMonotone | backend/webcam.py:48-51 | the best area never decreases; the crop changes only to a box of this frame with strictly larger area; an unseen label keeps both |
| FrameStep.CountedConfirmed | backend/webcam.py:35-72 | scanning, resetting and counting leave `confirmed` unchanged |
| FrameStep.AddFiresIff | backend/webcam.py:75-83 | an add fires iff the probed label has count >= 10, score > 30 and is not confirmed; afterwards it is confirmed and the event carries its best crop |
| FrameStep.RemoveFiresIff | backend/webcam.py:85-91 | a remove fires iff the probed label has count >= 10, score < -30 and is confirmed; afterwards it is not |
| FrameStep.ConfirmedChangesByOne | backend/webcam.py:71-91 | at most one event per frame; `confirmed` changes by exactly the label that event names and only then; a frame without approved detections fires nothing |
| FrameStep.DecideBoundary | backend/webcam.py:75-85 | a count of 9, or a score of exactly +30 or -30, fires nothing |
| TrackHistory.InitialConsistent | backend/webcam.py:17-24 | before any frame the maps agree with the empty history |
| TrackHistory.StepConsistent | backend/webcam.py:27-72 | each frame keeps count = length of the label's current run of consecutive frames, score = latest centre minus the centre of the run's first box, last centre = latest centre, best area = largest area ever seen |
| TrackHistory.AddFiresOnRun | backend/webcam.py:75-83 | an add fires iff the probed label was seen in the last >= 10 consecutive frames, moved down by more than 30 px since its run began, and is not confirmed |
| TrackHistory.RemoveFiresOnRun | backend/webcam.py:85-91 | a remove fires iff the probed label was seen in the last >= 10 consecutive frames, moved up by more than 30 px since its run began, and is confirmed |
| Webcam.CartTracker.constructor | backend/webcam.py:17-24 | the tracker starts with empty maps, consistent with the empty history |
| Webcam.CartTracker.ProcessFrame | backend/webcam.py:33-91 | one loop iteration: the new maps and event are those of the frame step for a probe that is a detected label, and the history invariant is kept |
| Webcam.CartTracker.ScanFrame | backend/webcam.py:35-61 | the box loop returns the detected set and leaves the state of the pure box scan |
| Webcam.CartTracker.ScanOne | backend/webcam.py:38-61 | one box's updates equal the pure single-box step |
| Webcam.CartTracker.ResetAbsent | backend/webcam.py:63-68 | the reset loop over a snapshot of the counted labels yields the pure reset |
| Webcam.CartTracker.ResetOne | backend/webcam.py:66-68 | a label the frame did not show gets count 0, score 0 and no last centre; no other field changes |
| Webcam.CartTracker.CountDetected | backend/webcam.py:70-72 | the counting loop yields the pure count; the label it visited last is a detected one, and none exists iff nothing was detected |
| Webcam.CartTracker.BumpOne | backend/webcam.py:72 | one detected label's count goes up by one (missing reads as 0); no other field changes |
| Webcam.CartTracker.TestThresholds | backend/webcam.py:75-91 | the threshold test on the fields equals the pure threshold test |
| Webcam.ThresholdLabelAsWritten | backend/webcam.py:63-75 | the label line 75 reads is unbound exactly when there was no earlier binding and no box, no counted label and no detection in this frame |
| Webcam.FirstFrameWithoutBoxesUnbound | backend/webcam.py:35-75 | on the tracker's first frame, whatever order the loops take, `label` is unbound at the threshold test exactly when the frame has no box |
| Webcam.NothingDetectedNothingFires | backend/webcam.py:63-76 | when nothing approved is detected, whatever label is read has count 0, so the test behaves as with no probe |
| FirebaseCart.GetProductInfo | backend/firebase.py:133-160 | a label whose lower-cased form is in the table gets that entry; any other gets its title-cased form at price 0; so the price is positive iff the label is in the table |
| FirebaseCart.ProductInfoIgnoresCase | backend/firebase.py:157-160 | the product does not depend on the label's letter case |
| FirebaseCart.ApprovedLabelsArePriced | backend/firebase.py:145-155 | the table's keys are exactly the tracker's approved labels, all with positive prices |
| FirebaseCart.Basename | backend/firebase.py:186 | `os.path.basename` is the longest suffix without a '/' |
| FirebaseCart.ContentType | backend/firebase.py:312-315 | the content type is `image/png` or `image/jpeg` |
| FirebaseCart.PngInAnyCase | backend/firebase.py:313-315 | a name ending in ".png" in any letter case is uploaded as PNG |
| FirebaseCart.JpegOtherwise | backend/firebase.py:313-315 | any other name is uploaded as JPEG |
| FirebaseCart.BlobPath | backend/firebase.py:308 | the blob path is `carts/`, then exactly the session id, then `/` and the file name |
| FirebaseCart.BlobPathNamesItsCart | backend/firebase.py:308 | for a session id without `/`, the folder after `carts/` (up to the next `/`) is the session id |
| FirebaseCart.BlobPathsOfCartsDiffer | backend/firebase.py:308 | uploads of two different carts (ids without `/`) never share a Storage path, whatever the file names |
| FirebaseCart.DownloadUrl | backend/firebase.py:318-320 | the URL starts with the Storage host, bucket and `/o/`, and ends with `?alt=media&token=` and the token |
| FirebaseCart.DownloadUrlTokenMatters | backend/firebase.py:310-320 | different tokens of the same length give different URLs for the same blob |
| FirebaseCart.NewCart | backend/firebase.py:50-58 | a new cart is active, with totals 0, no items, the given metadata or else an empty one, and its totals agree with its items |
| FirebaseCart.ItemIdInjective | backend/firebase.py:195 | an item id determines the clock reading inside it |
| FirebaseCart.FinalImageUrl | backend/firebase.py:184-187 | a given URL is used as is; without one, an upload happens only for an existing path, and its URL carries the token; otherwise the given value stays |
| FirebaseCart.NewItem | backend/firebase.py:194-203 | the appended item has action `add`, the label, the price defaulting to 0, the given product name or else the title-cased label, the request's confidence and the clock's ISO timestamp |
| FirebaseCart.ArrayUnion | backend/firebase.py:194 | `ArrayUnion` appends the item unless an equal one is present, and keeps every existing item |
| FirebaseCart.WithItem | backend/firebase.py:190-205 | add_item counts one more item, adds its price, and makes it present while keeping every earlier item |
| FirebaseCart.UpdatedTotals | backend/firebase.py:277-293 | `_update_cart_total` either sets the count and zeroes the price, or adds both increments; items untouched |
| FirebaseCart.FirstMatch | backend/firebase.py:233-236 | the index of the first item with the label, none iff no item has it |
| FirebaseCart.WithoutFirstAt | backend/firebase.py:230-236 | removing drops exactly the first matching item and keeps the others in order |
| FirebaseCart.WithoutFirstNone | backend/firebase.py:230-236 | with no match the items are unchanged |
| FirebaseCart.WithoutFirstSpec | backend/firebase.py:230-236 | both cases of removal by the first matching index |
| FirebaseCart.RemoveFirstMatch | backend/firebase.py:232-236 | the enumerate/pop/break loop computes the removal |
| FirebaseCart.WithoutFirst | backend/firebase.py:230-236 | one item fewer when some item has the label, the same items otherwise, and no item that was not there before |
| FirebaseCart.Removed | backend/firebase.py:227-240 | remove_item lowers the count by one and the total by the passed price whether or not an item matched, and drops an item only when one matched |
| FirebaseCart.Cleared | backend/firebase.py:267-273 | clear_cart_items zeroes both totals and keeps the items |
| FirebaseCart.AddKeepsBalanced | backend/firebase.py:190-205 | appending a new item keeps the totals equal to the item count and price sum |
| FirebaseCart.RemoveBalancedIff | backend/firebase.py:226-240 | remove_item keeps a balanced cart balanced iff some item matched and the first match has the price passed in |
| FirebaseCart.ClearBalancedIff | backend/firebase.py:267-273 | clear_cart_items keeps a balanced cart balanced iff it held no items |
| FirebaseCart.ReturnedIdMissesStoredItem | backend/firebase.py:195-207 | when the clock moves between the two readings, the returned id is not the stored item's id |
| FirebaseCart.ReturnedIdAsWritten | backend/firebase.py:207 | the id add_item returns equals the stored item's id exactly when the clock did not move between the two readings |
| FirebaseCart.CartStore.constructor | backend/firebase.py:13-34 | the manager starts with no carts and no blobs |
| FirebaseCart.CartStore.CreateCart | backend/firebase.py:38-62 | writes (or overwrites) the default cart under its session id and returns it |
| FirebaseCart.CartStore.UploadImage | backend/firebase.py:295-320 | stores the blob at `carts/{session}/{file}` with the content type and token, and returns its download URL |
| FirebaseCart.CartStore.AddItem | backend/firebase.py:164-207 | uploads when required (even for a missing cart); on an existing cart adds 1 and the price to the totals and appends the new item; returns that item's id, none for a missing cart |
| FirebaseCart.CartStore.UpdateCartTotal | backend/firebase.py:277-293 | applies the total update to an existing cart; false and no change for a missing one |
| FirebaseCart.CartStore.RemoveItem | backend/firebase.py:209-242 | decrements the totals unconditionally, drops only the first item with the label, returns `{label}_removed`; no change for a missing cart |
| FirebaseCart.CartStore.GetCartItems | backend/firebase.py:244-255 | the cart's items, or none for a missing cart; the items belong to the one stored cart whose own session id is the requested one |
| FirebaseCart.CartStore.ClearCartItems | backend/firebase.py:257-273 | returns the item count before the call and zeroes the totals, keeping the items |
| Backend.IsTokenValid | backend/app.py:36-40 | a missing expiry is never valid; a present one is valid strictly before it |
| Backend.TokenValidityMonotone | backend/app.py:36-40 | a token valid at some time is valid at every earlier time |
| Backend.FreshTokenWindow | backend/app.py:73-74 | a token issued at t is valid exactly for times before t plus 10 minutes |
| Backend.PairLadder | backend/app.py:157-172 | pair_phone's checks in order: no token gives 400, no session 404, an invalid token 410, an already paired session 409; 200 iff every check passes |
| Backend.QrLadder | backend/app.py:449-464 | the QR checks in order: no session gives 404, no token 400, an already paired session 409, an invalid token 410; 200 iff every check passes |
| Backend.LaddersDisagreeIff | backend/app.py:449-464 | for a session reached by its own token the ladders differ iff it is paired and expired: pairing says 410, the QR endpoint 409 |
| Backend.FirstWith | backend/app.py:247-253 | the first line with the barcode, none iff no line has it |
| Backend.InventoryTotal | backend/app.py:275 | the sum of price times quantity, never negative when no price or quantity is |
| Backend.IncrementFirst | backend/app.py:247-253 | `$inc` keeps the number of lines and every line's barcode, name and price, and raises each quantity by at most one and the units by at most one |
| Backend.SetFieldsFirst | backend/app.py:289-305 | `$set` keeps the number of lines and every line's barcode |
| Backend.AddLine | backend/app.py:246-270 | a scan of a new barcode pushes one line with one unit at the end; a known barcode keeps the number of lines; every earlier line keeps its barcode, name and price, and its quantity grows by at most one |
| Backend.IncrementFirstEffect | backend/app.py:247-253 | `$inc` adds one unit to the first matching line only, raising the total by that line's price |
| Backend.SetFieldsFirstEffect | backend/app.py:289-305 | `$set` changes only the supplied fields of the first matching line |
| Backend.SetFieldsFirstNone | backend/app.py:302-308 | with no matching line nothing changes |
| Backend.PullAll | backend/app.py:325-331 | `$pull` keeps exactly the lines with another barcode and never lengthens the list |
| Backend.PullAllCounts | backend/app.py:325-331 | every line with another barcode survives as many times as it occurred; none with the barcode survives |
| Backend.PullAllAppend | backend/app.py:325-331 | the surviving lines keep their order: pulling from a list with one more line at the end appends that line unless it carries the barcode |
| Backend.ResolvePrice | backend/app.py:237-244 | the request's price when truthy; otherwise the catalogue's price for the barcode, or 0 without an entry |
| Backend.ZeroPriceReadsCatalog | backend/app.py:238-239 | a requested price of 0 falls back to the catalogue like a missing one |
| Backend.TotalAppend | backend/app.py:255-270 | a pushed line adds its price times quantity to the total and its quantity to the units |
| Backend.AddLineAddsOneUnit | backend/app.py:246-270 | each scan adds exactly one unit, whether it increments or pushes, and the barcode is then present |
| Backend.Recomputed | backend/app.py:272-279 | after a mutation the stored total equals the sum of price times quantity |
| Backend.Paired | backend/app.py:174-183 | pairing sets `paired_at` to now and the phone id, the given one when truthy and `phone_` plus 12 uuid hex digits otherwise, keeping the session's id and token |
| Backend.Service.constructor | backend/app.py:15-19 | the three collections start empty |
| Backend.Service.CreateSession | backend/app.py:59-104 | 201; an active unpaired session whose token expires 10 minutes after now, and an empty inventory with total 0 |
| Backend.Service.CheckoutSession | backend/app.py:132-143 | 404 for an unknown session; otherwise marks it completed at now |
| Backend.Service.PairPhone | backend/app.py:150-189 | answers the pairing ladder for the session found by token; only a 200 changes anything, and it pairs that session |
| Backend.Service.GetPairingStatus | backend/app.py:192-209 | 404 for an unknown session; otherwise paired iff `paired_at` is set, and token validity at now |
| Backend.Service.CheckPairingQrCode | backend/app.py:446-464 | answers the QR ladder for the session |
| Backend.Service.AddItemToInventory | backend/app.py:225-281 | low confidence: needs confirmation, no change; no barcode: 400; otherwise 200 and, for an existing inventory, one more unit of the barcode with the total recomputed |
| Backend.Service.UpdateInventoryItem | backend/app.py:284-319 | 400 with no fields; 404 without a matching line; otherwise the first matching line's supplied fields change and the total is recomputed |
| Backend.Service.RemoveInventoryItem | backend/app.py:322-345 | 404 only for a missing inventory; otherwise every line with the barcode goes and the total is recomputed |
| Backend.Service.CreatePrice | backend/app.py:375-403 | 400 without barcode or price; otherwise upserts the document, 201 iff the barcode was new |
| Backend.Service.UpdatePrice | backend/app.py:406-427 | 404 for an unknown barcode; otherwise only the supplied fields and the update time change |
| Backend.Service.DeletePrice | backend/app.py:430-438 | 404 iff the barcode is unknown; the document is gone afterwards |

## Left out

- Object detection, camera capture, display windows, `cv2.imwrite`, the hand-off of crops to an image classifier, the console prints of events and state, and the exit on the `q` key (`webcam.py` lines 1-6, 28-33, 77, 81-83, 86, 90-100): detections are an input sequence of labelled integer boxes, a crop is the frame number plus the box, and the tracker runs for as many frames as it is given.
- FrameStep.ScanBox: reading `best_area[label]` on the `defaultdict` at `webcam.py` line 49 inserts the label with area 0 when its first box has area 0 or less (a degenerate box); the model keeps no such entry. Every comparison reads it as 0 either way, so no area, crop or event differs.
- FrameStep.Step: when a frame has no approved detection, the source still evaluates `frame_counts[label]` for whatever label is bound. On a `defaultdict` this inserts the label with count 0 if it is missing (for instance the last unapproved box name, when no label was counted yet). The model reads nothing then, so its counter keys stay within `APPROVED_LABELS`. No count, score or event differs (`Webcam.NothingDetectedNothingFires`).
- Firestore `SERVER_TIMESTAMP` fields (`created_at`, `updated_at`), the atomicity of `Increment`, concurrent writers and Firestore's own error types: a cart is a record in a map.
- `update_cart`, `delete_cart`, `list_carts` and `get_cart` as separate operations (only `get_cart`'s lookup is used, inside the modelled ones), and the `firebase_admin` initialisation: they are not part of this model.
- The unused parameters of `remove_item` (`image_path`, `product_name`, `metadata`) and `add_item`'s `metadata`: the source never reads them.
- `urllib.parse.quote`: an abstract function parameter; the Storage bucket name is a constructor argument instead of the `FIREBASE_STORAGE_BUCKET` environment variable.
- Floating-point money: prices and totals are integer cents, so `total_price` is exact where the source accumulates float rounding.
- Common.Lower, Common.Title: only ASCII letters are cased; Python's Unicode case mapping is not modelled.
- Malformed requests in `app.py`: a missing or non-JSON body and non-numeric prices make the source raise (HTTP 500). The request datatypes only say whether a key is present and carry well-typed values, so JSON `null` values are not modelled either. The source does not treat these alike:
  - `"name": null` in `update_inventory_item` (backend/app.py:293-294) is stored as the line's name, and the answer is 200.
  - `"currency": null` and `"product_name": null` are stored as null by `create_price` (backend/app.py:393, 395) and by `update_price` (backend/app.py:421-424).
  - `"qty": null` or `"price": null` in `update_inventory_item` raise only when the total is recomputed (backend/app.py:310). That is after the positional `$set` (backend/app.py:301-304) has been written. The stored `total` then no longer equals the sum of its lines, so the invariant `Backend.Service.Valid` (total equals `InventoryTotal`) is one the source does not keep on that path.
  - `"price": null` in `create_price` and `update_price` raises in `float(...)` before anything is written.
- Several readings of `now()` within one handler (token expiry, `created_at`, `updated_at`) are collapsed into one `now` parameter.
- MongoDB documents that share a `session_id` or `barcode`: the maps keep one document per key, and `insert_one` of an existing session id replaces it.
- `cleanup_expired_sessions`, QR image rendering and base64 encoding, the read-only listing endpoints (`get_session`, `list_sessions`, `get_inventory`, `list_prices`, `get_price`), `backend/stripe.py` and the environment reads of `backend/config.py` (`CONFIDENCE_THRESHOLD` is its default, 0.28): they are not part of this model.
- Random tokens, uuids and clock readings are parameters; ISO-format strings of times are not modelled.

## Findings

| source | as written | input that shows it | evidently intended | confidence | as-written member | corrected member |
|---|---|---|---|---|---|---|
| backend/webcam.py:75 | the threshold test reads the loop variable `label` after the loops, where only an earlier loop can have bound it | the first frame has no boxes at all (an empty cart in view): no loop binds `label`, and line 75 raises `NameError`, ending the tracker | no threshold test when nothing approved was detected | not executed | Webcam.FirstFrameWithoutBoxesUnbound | FrameStep.ConfirmedChangesByOne |
| backend/firebase.py:207 | `add_item` returns an id built from a new `datetime.now()` reading, not the `item_id` it stored at line 195 | any call during which the clock advances between lines 195 and 207: the returned id names no item in the cart | return the id of the item just stored | not executed | FirebaseCart.ReturnedIdMissesStoredItem | FirebaseCart.CartStore.AddItem |

=== FILE: app.dfy ===
/**
 * The session, pairing, inventory and price handlers of backend/app.py.
 *
 * The three MongoDB collections are maps keyed by session id (sessions,
 * inventory) and by barcode (prices); each handler is a method that
 * returns the HTTP status code and updates the maps. Times are integer
 * microseconds, money is integer cents, and the clock reading, the random
 * pairing token and the uuid hex strings are parameters. A JSON body is a
 * request datatype whose optional fields are None when the key is absent.
 */
module Backend {
  import opened Common

  const MINUTE: int := 60_000_000
  const PAIRING_TOKEN_EXPIRY_MINUTES: int := 10
  const TOKEN_LIFETIME: int := PAIRING_TOKEN_EXPIRY_MINUTES * MINUTE

  /** The default of CONFIDENCE_THRESHOLD (backend/config.py line 8). */
  const CONFIDENCE_THRESHOLD: real := 0.28

  datatype Session = Session(sessionId: string, cartId: string, pairingToken: Option<string>,
                             tokenExpiresAt: Option<int>, status: string, createdAt: int,
                             phoneId: Option<string>, pairedAt: Option<int>, completedAt: Option<int>)

  /** One inventory line. */
  datatype Line = Line(barcode: string, name: Option<string>, qty: int, price: int)

  datatype Inventory = Inventory(sessionId: string, items: seq<Line>, total: int, updatedAt: int)

  datatype PriceDoc = PriceDoc(barcode: string, price: int, currency: string, lastUpdated: int,
                               productName: string)

  /** The reply of create_session (lines 98-104). */
  datatype Created = Created(sessionId: string, pairingToken: string, tokenExpiresAt: int, cartId: string)

  /** The reply of get_pairing_status (lines 203-209). */
  datatype PairingStatus = PairingStatus(isPaired: bool, tokenValid: bool, pairedAt: Option<int>,
                                         phoneId: Option<string>)

  datatype PairRequest = PairRequest(pairingToken: Option<string>, phoneId: Option<string>)
  datatype AddLineRequest = AddLineRequest(confidence: Option<real>, barcode: Option<string>,
                                           price: Option<int>, name: Option<string>)
  datatype UpdateLineRequest = UpdateLineRequest(qty: Option<int>, price: Option<int>, name: Option<string>)
  datatype PriceRequest = PriceRequest(barcode: Option<string>, price: Option<int>, currency: Option<string>,
                                       productName: Option<string>)
  datatype PriceUpdateRequest = PriceUpdateRequest(price: Option<int>, currency: Option<string>,
                                                   productName: Option<string>)

  // ---------------------------------------------------------------------------
  // Pairing tokens (lines 30-40)
  // ---------------------------------------------------------------------------

  /** `is_token_valid`: a missing expiry is never valid; otherwise valid strictly before it. */
  predicate IsTokenValid(expiresAt: Option<int>, now: int): (r: bool)
    ensures expiresAt.None? ==> !r
    ensures expiresAt.Some? ==> (r <==> now < expiresAt.value)
  {
    expiresAt.Some? && now < expiresAt.value
  }

  /** A token valid at some time was valid at every earlier time. */
  lemma TokenValidityMonotone(expiresAt: Option<int>, earlier: int, later: int)
    requires earlier <= later && IsTokenValid(expiresAt, later)
    ensures IsTokenValid(expiresAt, earlier)
  {
  }

  /** A token issued at `issued` is valid exactly during the following ten minutes. */
  lemma FreshTokenWindow(issued: int, now: int)
    ensures IsTokenValid(Some(issued + TOKEN_LIFETIME), now) <==> now < issued + 600_000_000
  {
  }

  // ---------------------------------------------------------------------------
  // The two error ladders (lines 157-172 and 449-464)
  // ---------------------------------------------------------------------------

  /** The status pair_phone answers for a token and the session found with it. */
  function PairLadder(token: Option<string>, found: Option<Session>, now: int): (code: int)
    ensures code in {200, 400, 404, 409, 410}
    ensures !Truthy(token) ==> code == 400
    ensures Truthy(token) && found.None? ==> code == 404
    ensures Truthy(token) && found.Some? && !IsTokenValid(found.value.tokenExpiresAt, now) ==> code == 410
    ensures (Truthy(token) && found.Some? && IsTokenValid(found.value.tokenExpiresAt, now)
             && found.value.pairedAt.Some?) ==> code == 409
    ensures code == 200 <==> Truthy(token) && found.Some? && IsTokenValid(found.value.tokenExpiresAt, now)
                              && found.value.pairedAt.None?
  {
    if !Truthy(token) then 400
    else if found.None? then 404
    else if !IsTokenValid(found.value.tokenExpiresAt, now) then 410
    else if found.value.pairedAt.Some? then 409
    else 200
  }

  /** The status generate_pairing_qrcode answers before rendering anything. */
  function QrLadder(found: Option<Session>, now: int): (code: int)
    ensures code in {200, 400, 404, 409, 410}
    ensures found.None? ==> code == 404
    ensures found.Some? && !Truthy(found.value.pairingToken) ==> code == 400
    ensures found.Some? && Truthy(found.value.pairingToken) && found.value.pairedAt.Some? ==> code == 409
    ensures (found.Some? && Truthy(found.value.pairingToken) && found.value.pairedAt.None?
             && !IsTokenValid(found.value.tokenExpiresAt, now)) ==> code == 410
    ensures code == 200 <==> found.Some? && Truthy(found.value.pairingToken)
                              && IsTokenValid(found.value.tokenExpiresAt, now) && found.value.pairedAt.None?
  {
    if found.None? then 404
    else if !Truthy(found.value.pairingToken) then 400
    else if found.value.pairedAt.Some? then 409
    else if !IsTokenValid(found.value.tokenExpiresAt, now) then 410
    else 200
  }

  /**
   * For a session reached through its own token, the two ladders disagree
   * exactly when the session is both paired and expired: pairing answers
   * 410 and the QR endpoint 409.
   */
  lemma LaddersDisagreeIff(s: Session, now: int)
    requires Truthy(s.pairingToken)
    ensures PairLadder(s.pairingToken, Some(s), now) != QrLadder(Some(s), now) <==>
      s.pairedAt.Some? && !IsTokenValid(s.tokenExpiresAt, now)
    ensures s.pairedAt.Some? && !IsTokenValid(s.tokenExpiresAt, now) ==>
      PairLadder(s.pairingToken, Some(s), now) == 410 && QrLadder(Some(s), now) == 409
  {
  }

  // ---------------------------------------------------------------------------
  // Inventory lines
  // ---------------------------------------------------------------------------

  /** `sum(item.price * item.qty for item in items)` (lines 275, 313, 339). */
  function InventoryTotal(items: seq<Line>): (r: int)
    ensures (forall i :: 0 <= i < |items| ==> items[i].price >= 0 && items[i].qty >= 0) ==> r >= 0
  {
    if items == [] then 0 else items[0].price * items[0].qty + InventoryTotal(items[1..])
  }

  /** The number of units in the lines. */
  function TotalQty(items: seq<Line>): int {
    if items == [] then 0 else items[0].qty + TotalQty(items[1..])
  }

  /** The barcodes of the lines, in order. */
  function Barcodes(items: seq<Line>): seq<string> {
    if items == [] then [] else [items[0].barcode] + Barcodes(items[1..])
  }

  predicate HasBarcode(items: seq<Line>, barcode: string) {
    exists i :: 0 <= i < |items| && items[i].barcode == barcode
  }

  /** The index of the first line with the barcode, the one Mongo's positional `$` updates. */
  function FirstWith(items: seq<Line>, barcode: string): (r: Option<nat>)
    ensures r.Some? ==> r.value < |items| && items[r.value].barcode == barcode
    ensures r.Some? ==> forall j :: 0 <= j < r.value ==> items[j].barcode != barcode
    ensures r.None? <==> !HasBarcode(items, barcode)
  {
    if items == [] then None
    else if items[0].barcode == barcode then Some(0)
    else
      var m := FirstWith(items[1..], barcode);
      assert HasBarcode(items, barcode) ==> items[0].barcode == barcode || HasBarcode(items[1..], barcode) by {
        if HasBarcode(items, barcode) {
          var i :| 0 <= i < |items| && items[i].barcode == barcode;
          if i > 0 {
            assert items[1..][i - 1] == items[i];
          }
        }
      }
      if m.Some? then Some(m.value + 1) else None
  }

  /** `$inc: {"items.$.qty": 1}` on the first line with the barcode. */
  function IncrementFirst(items: seq<Line>, barcode: string): (r: seq<Line>)
    ensures |r| == |items|
    ensures Barcodes(r) == Barcodes(items)
    ensures forall i :: 0 <= i < |r| ==>
      && r[i].barcode == items[i].barcode && r[i].name == items[i].name && r[i].price == items[i].price
      && items[i].qty <= r[i].qty <= items[i].qty + 1
    ensures TotalQty(items) <= TotalQty(r) <= TotalQty(items) + 1
  {
    if items == [] then []
    else if items[0].barcode == barcode then [items[0].(qty := items[0].qty + 1)] + items[1..]
    else [items[0]] + IncrementFirst(items[1..], barcode)
  }

  /** `$set` of the supplied fields on the first line with the barcode (lines 289-305). */
  function SetFieldsFirst(items: seq<Line>, barcode: string, req: UpdateLineRequest): (r: seq<Line>)
    ensures |r| == |items|
    ensures Barcodes(r) == Barcodes(items)
  {
    if items == [] then []
    else if items[0].barcode == barcode then [SetFields(items[0], req)] + items[1..]
    else [items[0]] + SetFieldsFirst(items[1..], barcode, req)
  }

  function SetFields(l: Line, req: UpdateLineRequest): (r: Line)
    ensures r.barcode == l.barcode
  {
    l.(qty := if req.qty.Some? then req.qty.value else l.qty,
       price := if req.price.Some? then req.price.value else l.price,
       name := if req.name.Some? then req.name else l.name)
  }

  /** `$pull: {"items": {"barcode": barcode}}`: every line with the barcode goes, the rest stay in order. */
  function PullAll(items: seq<Line>, barcode: string): (r: seq<Line>)
    ensures forall l :: l in r <==> l in items && l.barcode != barcode
    ensures |r| <= |items|
  {
    if items == [] then []
    else if items[0].barcode == barcode then PullAll(items[1..], barcode)
    else [items[0]] + PullAll(items[1..], barcode)
  }

  /** `$pull` keeps every other line as many times as it occurred. */
  lemma {:induction false} PullAllCounts(items: seq<Line>, barcode: string)
    ensures forall l :: multiset(PullAll(items, barcode))[l] == if l.barcode == barcode then 0 else multiset(items)[l]
  {
    if items != [] {
      assert items == [items[0]] + items[1..];
      PullAllCounts(items[1..], barcode);
    }
  }

  /** `$pull` keeps the remaining lines in their order: it works line by line from the front. */
  lemma {:induction false} PullAllAppend(items: seq<Line>, l: Line, barcode: string)
    ensures PullAll(items + [l], barcode) == PullAll(items, barcode) + (if l.barcode == barcode then [] else [l])
  {
    if items != [] {
      assert (items + [l])[1..] == items[1..] + [l];
      PullAllAppend(items[1..], l, barcode);
    }
  }

  /**
   * The lines add_item_to_inventory leaves (lines 247-270): a new line with
   * one unit at the end when the barcode is new, otherwise the same lines
   * with the same barcodes.
   */
  function AddLine(items: seq<Line>, barcode: string, name: Option<string>, price: int): (r: seq<Line>)
    ensures |r| == |items| + (if HasBarcode(items, barcode) then 0 else 1)
    ensures Barcodes(items) <= Barcodes(r)
    ensures forall i :: 0 <= i < |items| ==>
      && r[i].barcode == items[i].barcode && r[i].name == items[i].name && r[i].price == items[i].price
      && items[i].qty <= r[i].qty <= items[i].qty + 1
    ensures !HasBarcode(items, barcode) ==> r[|items|] == Line(barcode, name, 1, price)
  {
    if HasBarcode(items, barcode) then IncrementFirst(items, barcode)
    else
      BarcodesAppend(items, Line(barcode, name, 1, price));
      items + [Line(barcode, name, 1, price)]
  }

  lemma {:induction false} BarcodesAppend(items: seq<Line>, l: Line)
    ensures Barcodes(items + [l]) == Barcodes(items) + [l.barcode]
  {
    if items != [] {
      assert (items + [l])[1..] == items[1..] + [l];
      BarcodesAppend(items[1..], l);
    }
  }

  /** The price of a new line: the request's if truthy, else the catalog's, else 0 (lines 238-244). */
  function ResolvePrice(requested: Option<int>, catalog: map<string, PriceDoc>, barcode: string): (r: int)
    ensures requested.Some? && requested.value != 0 ==> r == requested.value
    ensures (requested.None? || requested.value == 0) && barcode !in catalog ==> r == 0
    ensures (requested.None? || requested.value == 0) && barcode in catalog ==> r == catalog[barcode].price
  {
    if requested.Some? && requested.value != 0 then requested.value
    else if barcode in catalog then catalog[barcode].price
    else 0
  }

  /** A requested price of 0 is falsy and reads the catalog like a missing one. */
  lemma ZeroPriceReadsCatalog(catalog: map<string, PriceDoc>, barcode: string)
    ensures ResolvePrice(Some(0), catalog, barcode) == ResolvePrice(None, catalog, barcode)
  {
  }

  lemma {:induction false} TotalAppend(items: seq<Line>, l: Line)
    ensures InventoryTotal(items + [l]) == InventoryTotal(items) + l.price * l.qty
    ensures TotalQty(items + [l]) == TotalQty(items) + l.qty
  {
    if items != [] {
      assert (items + [l])[0] == items[0];
      assert (items + [l])[1..] == items[1..] + [l];
      TotalAppend(items[1..], l);
    }
  }

  /** A barcode carried by some line but not the first is carried by a later one. */
  lemma HasBarcodeTail(items: seq<Line>, barcode: string)
    requires HasBarcode(items, barcode) && items[0].barcode != barcode
    ensures HasBarcode(items[1..], barcode)
  {
    var i :| 0 <= i < |items| && items[i].barcode == barcode;
    assert items[1..][i - 1] == items[i];
  }

  /**
   * Incrementing the first line with the barcode adds one unit and that
   * line's price, and changes no other line.
   */
  lemma IncrementFirstEffect(items: seq<Line>, barcode: string)
    requires HasBarcode(items, barcode)
    ensures var k := FirstWith(items, barcode).value;
      && IncrementFirst(items, barcode) == items[k := items[k].(qty := items[k].qty + 1)]
      && InventoryTotal(IncrementFirst(items, barcode)) == InventoryTotal(items) + items[k].price
      && TotalQty(IncrementFirst(items, barcode)) == TotalQty(items) + 1
  {
    IncrementFirstAt(items, barcode);
    IncrementFirstTotals(items, barcode);
  }

  lemma {:induction false} IncrementFirstAt(items: seq<Line>, barcode: string)
    requires HasBarcode(items, barcode)
    ensures var k := FirstWith(items, barcode).value;
      IncrementFirst(items, barcode) == items[k := items[k].(qty := items[k].qty + 1)]
  {
    if items[0].barcode != barcode {
      HasBarcodeTail(items, barcode);
      IncrementFirstAt(items[1..], barcode);
    }
  }

  lemma {:induction false} IncrementFirstTotals(items: seq<Line>, barcode: string)
    requires HasBarcode(items, barcode)
    ensures var k := FirstWith(items, barcode).value;
      && InventoryTotal(IncrementFirst(items, barcode)) == InventoryTotal(items) + items[k].price
      && TotalQty(IncrementFirst(items, barcode)) == TotalQty(items) + 1
  {
    var r := IncrementFirst(items, barcode);
    if items[0].barcode == barcode {
      assert r[1..] == items[1..];
      assert items[0].price * (items[0].qty + 1) == items[0].price * items[0].qty + items[0].price;
    } else {
      HasBarcodeTail(items, barcode);
      IncrementFirstTotals(items[1..], barcode);
      assert r[1..] == IncrementFirst(items[1..], barcode);
    }
  }

  /** Adding a scan always adds exactly one unit, whether it increments a line or pushes one. */
  lemma AddLineAddsOneUnit(items: seq<Line>, barcode: string, name: Option<string>, price: int)
    ensures TotalQty(AddLine(items, barcode, name, price)) == TotalQty(items) + 1
    ensures HasBarcode(AddLine(items, barcode, name, price), barcode)
    ensures !HasBarcode(items, barcode) ==>
      InventoryTotal(AddLine(items, barcode, name, price)) == InventoryTotal(items) + price
  {
    if HasBarcode(items, barcode) {
      IncrementFirstEffect(items, barcode);
      var k := FirstWith(items, barcode).value;
      assert AddLine(items, barcode, name, price)[k].barcode == barcode;
    } else {
      TotalAppend(items, Line(barcode, name, 1, price));
      assert AddLine(items, barcode, name, price)[|items|].barcode == barcode;
    }
  }

  /** Updating the first line with the barcode changes only the supplied fields of that line. */
  lemma {:induction false} SetFieldsFirstEffect(items: seq<Line>, barcode: string, req: UpdateLineRequest)
    requires HasBarcode(items, barcode)
    ensures var k := FirstWith(items, barcode).value;
      SetFieldsFirst(items, barcode, req) == items[k := SetFields(items[k], req)]
  {
    if items[0].barcode != barcode {
      HasBarcodeTail(items, barcode);
      SetFieldsFirstEffect(items[1..], barcode, req);
    }
  }

  /** Without a line with the barcode, SetFieldsFirst changes nothing. */
  lemma {:induction false} SetFieldsFirstNone(items: seq<Line>, barcode: string, req: UpdateLineRequest)
    requires !HasBarcode(items, barcode)
    ensures SetFieldsFirst(items, barcode, req) == items
  {
    if items != [] {
      SetFieldsFirstNone(items[1..], barcode, req);
    }
  }

  /** The inventory after a mutation: the new lines with the total recomputed. */
  function Recomputed(inv: Inventory, items: seq<Line>, now: int): (r: Inventory)
    ensures r.total == InventoryTotal(r.items) && r.items == items && r.sessionId == inv.sessionId
  {
    inv.(items := items, total := InventoryTotal(items), updatedAt := now)
  }

  /** A session paired only while its token was valid, and with a phone. */
  predicate PairedInTime(s: Session) {
    s.pairedAt.Some? ==> s.phoneId.Some? && s.tokenExpiresAt.Some? && s.pairedAt.value < s.tokenExpiresAt.value
  }

  /** The session pair_phone stores on success (lines 175-183). */
  function Paired(s: Session, phoneId: Option<string>, uuidHex: string, now: int): (r: Session)
    ensures r.pairedAt == Some(now) && r.phoneId.Some?
    ensures Truthy(phoneId) ==> r.phoneId == phoneId
    ensures !Truthy(phoneId) ==> r.phoneId == Some("phone_" + Prefix(uuidHex, 12))
    ensures r.sessionId == s.sessionId && r.pairingToken == s.pairingToken && r.tokenExpiresAt == s.tokenExpiresAt
  {
    s.(phoneId := Some(if Truthy(phoneId) then phoneId.value else "phone_" + Prefix(uuidHex, 12)),
       pairedAt := Some(now))
  }

  // ---------------------------------------------------------------------------
  // The service
  // ---------------------------------------------------------------------------

  class Service {
    var sessions: map<string, Session>
    var inventory: map<string, Inventory>
    var prices: map<string, PriceDoc>

    /**
     * Documents are stored under their own keys, every stored total is the
     * sum over its lines, and every pairing happened before the token expired.
     */
    ghost predicate Valid()
      reads this
    {
      && (forall k :: k in sessions ==> sessions[k].sessionId == k && PairedInTime(sessions[k]))
      && (forall k :: k in inventory ==> inventory[k].sessionId == k
                                         && inventory[k].total == InventoryTotal(inventory[k].items))
      && (forall b :: b in prices ==> prices[b].barcode == b)
    }

    constructor ()
      ensures Valid()
      ensures sessions == map[] && inventory == map[] && prices == map[]
    {
      sessions, inventory, prices := map[], map[], map[];
    }

    /**
     * create_session (lines 59-104): a fresh active, unpaired session whose
     * token expires ten minutes after `now`, and an empty inventory.
     */
    method CreateSession(cartId: Option<string>, cartHex: string, sessionHex: string, token: string, now: int)
      returns (code: int, created: Created)
      requires Valid()
      modifies this
      ensures Valid()
      ensures code == 201
      ensures created.sessionId == "session_" + Prefix(sessionHex, 12)
      ensures created.cartId == if Truthy(cartId) then cartId.value else "cart_" + Prefix(cartHex, 12)
      ensures created.pairingToken == token && created.tokenExpiresAt == now + TOKEN_LIFETIME
      ensures sessions == old(sessions)[created.sessionId :=
        Session(created.sessionId, created.cartId, Some(token), Some(now + TOKEN_LIFETIME), "active", now,
                None, None, None)]
      ensures inventory == old(inventory)[created.sessionId := Inventory(created.sessionId, [], 0, now)]
      ensures prices == old(prices)
    {
      var cart := if Truthy(cartId) then cartId.value else "cart_" + Prefix(cartHex, 12);
      var sid := "session_" + Prefix(sessionHex, 12);
      var expiresAt := now + PAIRING_TOKEN_EXPIRY_MINUTES * MINUTE;
      sessions := sessions[sid := Session(sid, cart, Some(token), Some(expiresAt), "active", now, None, None, None)];
      inventory := inventory[sid := Inventory(sid, [], 0, now)];
      code, created := 201, Created(sid, token, expiresAt, cart);
    }

    /** checkout_session (lines 132-143). */
    method CheckoutSession(sessionId: string, now: int) returns (code: int)
      requires Valid()
      modifies this
      ensures Valid()
      ensures code == (if sessionId in old(sessions) then 200 else 404)
      ensures code == 200 ==>
        sessions == old(sessions)[sessionId := old(sessions)[sessionId].(status := "completed", completedAt := Some(now))]
      ensures code == 404 ==> sessions == old(sessions)
      ensures inventory == old(inventory) && prices == old(prices)
    {
      if sessionId !in sessions {
        return 404;
      }
      sessions := sessions[sessionId := sessions[sessionId].(status := "completed", completedAt := Some(now))];
      code := 200;
    }

    /**
     * pair_phone (lines 150-189). `found` is the id of the session the
     * token lookup found, if any; only a 200 changes anything.
     */
    method PairPhone(req: PairRequest, uuidHex: string, now: int) returns (code: int, found: Option<string>)
      requires Valid()
      modifies this
      ensures Valid()
      ensures found.Some? ==> found.value in old(sessions) && old(sessions)[found.value].pairingToken == req.pairingToken
      ensures Truthy(req.pairingToken) && found.None? ==>
        forall k :: k in old(sessions) ==> old(sessions)[k].pairingToken != req.pairingToken
      ensures code == PairLadder(req.pairingToken, if found.Some? then Some(old(sessions)[found.value]) else None, now)
      ensures code != 200 ==> sessions == old(sessions)
      ensures code == 200 ==>
        && found.Some?
        && sessions == old(sessions)[found.value := Paired(old(sessions)[found.value], req.phoneId, uuidHex, now)]
      ensures inventory == old(inventory) && prices == old(prices)
    {
      found := None;
      if !Truthy(req.pairingToken) {
        return 400, None;
      }
      if !exists k :: k in sessions && sessions[k].pairingToken == req.pairingToken {
        return 404, None;
      }
      var k :| k in sessions && sessions[k].pairingToken == req.pairingToken;
      found := Some(k);
      var s := sessions[k];
      if !IsTokenValid(s.tokenExpiresAt, now) {
        return 410, found;
      }
      if s.pairedAt.Some? {
        return 409, found;
      }
      var phone := if Truthy(req.phoneId) then req.phoneId.value else "phone_" + Prefix(uuidHex, 12);
      sessions := sessions[k := s.(phoneId := Some(phone), pairedAt := Some(now))];
      code := 200;
    }

    /** get_pairing_status (lines 192-209). */
    method GetPairingStatus(sessionId: string, now: int) returns (code: int, status: Option<PairingStatus>)
      ensures code == 404 <==> sessionId !in sessions
      ensures code == 404 ==> status.None?
      ensures code != 404 ==> code == 200 && status.Some?
      ensures status.Some? ==>
        var s := sessions[sessionId];
        && status.value.isPaired == s.pairedAt.Some?
        && status.value.tokenValid == IsTokenValid(s.tokenExpiresAt, now)
        && status.value.pairedAt == s.pairedAt && status.value.phoneId == s.phoneId
    {
      if sessionId !in sessions {
        return 404, None;
      }
      var s := sessions[sessionId];
      status := Some(PairingStatus(s.pairedAt.Some?, IsTokenValid(s.tokenExpiresAt, now), s.pairedAt, s.phoneId));
      code := 200;
    }

    /** The precondition checks of generate_pairing_qrcode (lines 446-464); rendering is not modelled. */
    method CheckPairingQrCode(sessionId: string, now: int) returns (code: int)
      ensures code == QrLadder(Lookup(sessions, sessionId), now)
    {
      if sessionId !in sessions {
        return 404;
      }
      var s := sessions[sessionId];
      if !Truthy(s.pairingToken) {
        return 400;
      }
      if s.pairedAt.Some? {
        return 409;
      }
      if !IsTokenValid(s.tokenExpiresAt, now) {
        return 410;
      }
      code := 200;
    }

    /**
     * add_item_to_inventory (lines 225-281). A missing inventory is not an
     * error: the updates match nothing and the handler still answers 200.
     */
    method AddItemToInventory(sessionId: string, req: AddLineRequest, now: int)
      returns (code: int, needsConfirmation: bool)
      requires Valid()
      modifies this
      ensures Valid()
      ensures needsConfirmation <==> (if req.confidence.Some? then req.confidence.value else 1.0) < CONFIDENCE_THRESHOLD
      ensures code == (if !needsConfirmation && !Truthy(req.barcode) then 400 else 200)
      ensures sessions == old(sessions) && prices == old(prices)
      ensures needsConfirmation || code == 400 || sessionId !in old(inventory) ==> inventory == old(inventory)
      ensures !needsConfirmation && code == 200 && sessionId in old(inventory) ==>
        var inv := old(inventory)[sessionId];
        var price := ResolvePrice(req.price, old(prices), req.barcode.value);
        inventory == old(inventory)[sessionId := Recomputed(inv, AddLine(inv.items, req.barcode.value, req.name, price), now)]
    {
      var confidence := if req.confidence.Some? then req.confidence.value else 1.0;
      if confidence < CONFIDENCE_THRESHOLD {
        return 200, true;
      }
      if !Truthy(req.barcode) {
        return 400, false;
      }
      var barcode := req.barcode.value;
      var itemPrice := 0;
      if req.price.Some? && req.price.value != 0 {
        itemPrice := req.price.value;
      } else if barcode in prices {
        itemPrice := prices[barcode].price;
      }
      if sessionId in inventory {
        var inv := inventory[sessionId];
        var items := inv.items;
        if HasBarcode(items, barcode) {
          items := IncrementFirst(items, barcode);
        } else {
          items := items + [Line(barcode, req.name, 1, itemPrice)];
        }
        inventory := inventory[sessionId := inv.(items := items, total := InventoryTotal(items), updatedAt := now)];
      }
      code, needsConfirmation := 200, false;
    }

    /** update_inventory_item (lines 284-319). */
    method UpdateInventoryItem(sessionId: string, barcode: string, req: UpdateLineRequest, now: int)
      returns (code: int)
      requires Valid()
      modifies this
      ensures Valid()
      ensures code == 400 <==> req.qty.None? && req.price.None? && req.name.None?
      ensures code != 400 ==> code == (if sessionId in old(inventory) && HasBarcode(old(inventory)[sessionId].items, barcode) then 200 else 404)
      ensures code != 200 ==> inventory == old(inventory)
      ensures code == 200 ==>
        var inv := old(inventory)[sessionId];
        var k := FirstWith(inv.items, barcode).value;
        inventory == old(inventory)[sessionId := Recomputed(inv, inv.items[k := SetFields(inv.items[k], req)], now)]
      ensures sessions == old(sessions) && prices == old(prices)
    {
      if req.qty.None? && req.price.None? && req.name.None? {
        return 400;
      }
      if sessionId !in inventory || !HasBarcode(inventory[sessionId].items, barcode) {
        return 404;
      }
      var inv := inventory[sessionId];
      var items := SetFieldsFirst(inv.items, barcode, req);
      SetFieldsFirstEffect(inv.items, barcode, req);
      inventory := inventory[sessionId := inv.(items := items, total := InventoryTotal(items), updatedAt := now)];
      code := 200;
    }

    /** remove_inventory_item (lines 322-345): 404 only for a missing inventory. */
    method RemoveInventoryItem(sessionId: string, barcode: string, now: int) returns (code: int)
      requires Valid()
      modifies this
      ensures Valid()
      ensures code == (if sessionId in old(inventory) then 200 else 404)
      ensures code == 404 ==> inventory == old(inventory)
      ensures code == 200 ==>
        var inv := old(inventory)[sessionId];
        inventory == old(inventory)[sessionId := Recomputed(inv, PullAll(inv.items, barcode), now)]
      ensures sessions == old(sessions) && prices == old(prices)
    {
      if sessionId !in inventory {
        return 404;
      }
      var inv := inventory[sessionId];
      var items := PullAll(inv.items, barcode);
      inventory := inventory[sessionId := inv.(items := items, total := InventoryTotal(items), updatedAt := now)];
      code := 200;
    }

    /** create_price (lines 375-403): an upsert answering 201 when the barcode was new. */
    method CreatePrice(req: PriceRequest, now: int) returns (code: int)
      requires Valid()
      modifies this
      ensures Valid()
      ensures code == 400 <==> !Truthy(req.barcode) || req.price.None?
      ensures code != 400 ==> code == (if req.barcode.value in old(prices) then 200 else 201)
      ensures code == 400 ==> prices == old(prices)
      ensures code != 400 ==>
        prices == old(prices)[req.barcode.value := PriceDoc(req.barcode.value, req.price.value,
          if req.currency.Some? then req.currency.value else "USD", now,
          if req.productName.Some? then req.productName.value else "")]
      ensures sessions == old(sessions) && inventory == old(inventory)
    {
      if !Truthy(req.barcode) || req.price.None? {
        return 400;
      }
      var barcode := req.barcode.value;
      var doc := PriceDoc(barcode, req.price.value, if req.currency.Some? then req.currency.value else "USD", now,
                          if req.productName.Some? then req.productName.value else "");
      code := if barcode in prices then 200 else 201;
      prices := prices[barcode := doc];
    }

    /** update_price (lines 406-427). */
    method UpdatePrice(barcode: string, req: PriceUpdateRequest, now: int) returns (code: int)
      requires Valid()
      modifies this
      ensures Valid()
      ensures code == (if barcode in old(prices) then 200 else 404)
      ensures code == 404 ==> prices == old(prices)
      ensures code == 200 ==>
        var d := old(prices)[barcode];
        prices == old(prices)[barcode := d.(price := if req.price.Some? then req.price.value else d.price,
                                            currency := if req.currency.Some? then req.currency.value else d.currency,
                                            productName := if req.productName.Some? then req.productName.value else d.productName,
                                            lastUpdated := now)]
      ensures sessions == old(sessions) && inventory == old(inventory)
    {
      if barcode !in prices {
        return 404;
      }
      var d := prices[barcode];
      if req.price.Some? {
        d := d.(price := req.price.value);
      }
      if req.currency.Some? {
        d := d.(currency := req.currency.value);
      }
      if req.productName.Some? {
        d := d.(productName := req.productName.value);
      }
      prices := prices[barcode := d.(lastUpdated := now)];
      code := 200;
    }

    /** delete_price (lines 430-438). */
    method DeletePrice(barcode: string) returns (code: int)
      requires Valid()
      modifies this
      ensures Valid()
      ensures code == (if barcode in old(prices) then 200 else 404)
      ensures prices == old(prices) - {barcode}
      ensures sessions == old(sessions) && inventory == old(inventory)
    {
      code := if barcode in prices then 200 else 404;
      prices := prices - {barcode};
    }
  }
}

=== FILE: common.dfy ===
/**
 * Small helpers shared by the three components: an Option type, the
 * "missing key reads as 0" lookup of Python's defaultdict(int), and the
 * few Python string operations the backend relies on (str.lower,
 * str.title, str.endswith, prefix slicing, truthiness of an optional text).
 * Only ASCII letters are treated as cased characters.
 */
module Common {

  datatype Option<+T> = None | Some(value: T)

  /** Python truthiness of an optional text: None and "" are both falsy. */
  predicate Truthy(s: Option<string>) {
    s.Some? && s.value != ""
  }

  /** `d[k]` on a `defaultdict(int)`: a missing key reads as 0. */
  function Get(m: map<string, int>, k: string): int {
    if k in m then m[k] else 0
  }

  /** `d.get(k)` on a plain dict. */
  function Lookup<V>(m: map<string, V>, k: string): Option<V> {
    if k in m then Some(m[k]) else None
  }

  predicate IsUpperChar(c: char) { 'A' <= c <= 'Z' }
  predicate IsLowerChar(c: char) { 'a' <= c <= 'z' }
  predicate IsCased(c: char) { IsUpperChar(c) || IsLowerChar(c) }

  function LowerChar(c: char): (r: char)
    ensures IsCased(r) == IsCased(c)
    ensures !IsUpperChar(r)
    ensures !IsCased(c) ==> r == c
  {
    if IsUpperChar(c) then (c as int + 32) as char else c
  }

  function UpperChar(c: char): (r: char)
    ensures IsCased(r) == IsCased(c)
    ensures !IsLowerChar(r)
    ensures !IsCased(c) ==> r == c
  {
    if IsLowerChar(c) then (c as int - 32) as char else c
  }

  /** `s.lower()`. */
  function Lower(s: string): (r: string)
    ensures |r| == |s|
    ensures forall i :: 0 <= i < |s| ==> r[i] == LowerChar(s[i])
  {
    if s == [] then [] else [LowerChar(s[0])] + Lower(s[1..])
  }

  /**
   * `s.title()` continued after a character that was (`prevCased`) or was
   * not a cased character: a cased character is upper-cased when it follows
   * an uncased one and lower-cased when it follows a cased one; every other
   * character is kept.
   */
  function TitleFrom(s: string, prevCased: bool): (r: string)
    ensures |r| == |s|
  {
    if s == [] then []
    else
      [TitleChar(s[0], prevCased)] + TitleFrom(s[1..], IsCased(s[0]))
  }

  /** One character of `s.title()`, given whether the character before it is cased. */
  function TitleChar(c: char, prevCased: bool): char {
    if !IsCased(c) then c else if prevCased then LowerChar(c) else UpperChar(c)
  }

  /**
   * `s.title()`: the same letters, each cased word starting upper-case; a
   * text that starts with a letter starts with its upper-case form.
   */
  function Title(s: string): (r: string)
    ensures |r| == |s|
    ensures Lower(r) == Lower(s)
    ensures forall i :: 0 <= i < |s| && !IsCased(s[i]) ==> r[i] == s[i]
    ensures forall i :: 0 <= i < |s| && IsCased(s[i]) ==>
      r[i] == if i == 0 || !IsCased(s[i - 1]) then UpperChar(s[i]) else LowerChar(s[i])
  {
    TitleFromKeepsLetters(s, false);
    TitleFromAt(s, false);
    TitleFrom(s, false)
  }

  /** `s.endswith(suffix)`. */
  predicate EndsWith(s: string, suffix: string) {
    |suffix| <= |s| && s[|s| - |suffix|..] == suffix
  }

  /** `s[:n]` in Python: the whole text when it is shorter than `n`. */
  function Prefix(s: string, n: nat): (r: string)
    ensures |r| == if |s| <= n then |s| else n
    ensures r <= s
  {
    if |s| <= n then s else s[..n]
  }

  lemma LowerCharIdempotent(c: char)
    ensures LowerChar(LowerChar(c)) == LowerChar(c)
    ensures UpperChar(LowerChar(c)) == UpperChar(c)
  {
  }

  /** Title-casing ignores the letter case of its input. */
  lemma {:induction false} TitleFromIgnoresCase(s: string, prevCased: bool)
    ensures TitleFrom(Lower(s), prevCased) == TitleFrom(s, prevCased)
  {
    if s != [] {
      assert Lower(s)[0] == LowerChar(s[0]);
      assert Lower(s)[1..] == Lower(s[1..]);
      LowerCharIdempotent(s[0]);
      TitleFromIgnoresCase(s[1..], IsCased(s[0]));
    }
  }

  lemma TitleIgnoresCase(s: string)
    ensures Title(Lower(s)) == Title(s)
  {
    TitleFromIgnoresCase(s, false);
  }

  /** Two texts that agree up to letter case have the same title form. */
  lemma TitleOfCaseVariants(a: string, b: string)
    requires Lower(a) == Lower(b)
    ensures Title(a) == Title(b)
  {
    TitleIgnoresCase(a);
    TitleIgnoresCase(b);
  }

  /**
   * Character `i` of the title form: kept when uncased, otherwise lower-cased
   * exactly when the character before it (or `prevCased` for the first) is cased.
   */
  lemma {:induction false} TitleFromAt(s: string, prevCased: bool)
    ensures forall i :: 0 <= i < |s| ==>
      TitleFrom(s, prevCased)[i] == TitleChar(s[i], if i == 0 then prevCased else IsCased(s[i - 1]))
  {
    if s != [] {
      var t := TitleFrom(s, prevCased);
      var u := TitleFrom(s[1..], IsCased(s[0]));
      TitleFromAt(s[1..], IsCased(s[0]));
      assert t == [TitleChar(s[0], prevCased)] + u;
      forall i | 0 < i < |s|
        ensures t[i] == TitleChar(s[i], IsCased(s[i - 1]))
      {
        assert t[i] == u[i - 1];
        assert s[1..][i - 1] == s[i];
        if i > 1 {
          assert s[1..][i - 2] == s[i - 1];
        }
      }
    }
  }

  /** Title-casing changes letter case only: lower-casing undoes it. */
  lemma {:induction false} TitleFromKeepsLetters(s: string, prevCased: bool)
    ensures Lower(TitleFrom(s, prevCased)) == Lower(s)
  {
    if s != [] {
      var t := TitleFrom(s, prevCased);
      assert t[1..] == TitleFrom(s[1..], IsCased(s[0]));
      LowerCharIdempotent(s[0]);
      TitleFromKeepsLetters(s[1..], IsCased(s[0]));
      assert Lower(t)[1..] == Lower(t[1..]);
      assert Lower(s)[1..] == Lower(s[1..]);
    }
  }
}

=== FILE: firebase.dfy ===
/**
 * The Firestore cart record manager of backend/firebase.py.
 *
 * The `carts` collection is a map from document id (the session id) to the
 * cart record, and Firebase Storage is a map from blob path to the uploaded
 * blob. Prices are integer cents. The clock readings, the download token
 * and the local file system (`os.path.exists`) are parameters; the URL
 * encoder `urllib.parse.quote` is an abstract function parameter.
 *
 * A Firestore `update` on a document that does not exist raises; the
 * operations that update a cart return None (or false) in that case and
 * leave the carts unchanged.
 */
module FirebaseCart {
  import opened Common
  import FrameStep

  /** One entry of a cart's `items` array (firebase.py lines 194-203). */
  datatype CartItem = CartItem(itemId: string, name: string, productName: string, price: int,
                               confidence: real, imageUrl: Option<string>, timestamp: string,
                               action: string)

  /** A cart document (firebase.py lines 50-59). */
  datatype Cart = Cart(sessionId: string, status: string, totalItems: int, totalPrice: int,
                       items: seq<CartItem>, metadata: map<string, string>)

  datatype ProductInfo = ProductInfo(productName: string, price: int)

  /** An uploaded Storage blob: the local file, its content type and its download token. */
  datatype Blob = Blob(localPath: string, contentType: string, downloadToken: string)

  /**
   * The three readings of `datetime.now()` in add_item: the one inside the
   * stored item id (line 195), the item timestamp (line 201) and the one in
   * the returned id (line 207).
   */
  datatype Clock = Clock(idStamp: string, isoStamp: string, returnStamp: string)

  /** The keyword arguments of add_item that shape the stored item. */
  datatype AddRequest = AddRequest(name: string, imagePath: Option<string>, imageUrl: Option<string>,
                                   confidence: real, productName: Option<string>, price: Option<int>)

  // ---------------------------------------------------------------------------
  // Product table (firebase.py lines 133-160)
  // ---------------------------------------------------------------------------

  const PRODUCTS: map<string, ProductInfo> := map[
    "apple" := ProductInfo("Red Apple", 99),
    "banana" := ProductInfo("Banana", 50),
    "orange" := ProductInfo("Orange", 75),
    "broccoli" := ProductInfo("Fresh Broccoli", 249),
    "carrot" := ProductInfo("Carrot", 89),
    "bottle" := ProductInfo("Water Bottle", 199),
    "cup" := ProductInfo("Disposable Cup", 25),
    "bowl" := ProductInfo("Bowl", 399),
    "book" := ProductInfo("Book", 1299)
  ]

  /**
   * The product for a detector label: the table entry of the lower-cased
   * label, else the title-cased label at price 0. Only table products have
   * a positive price, and a fallback name spells the label.
   */
  function GetProductInfo(tag: string): (r: ProductInfo)
    ensures Lower(tag) in PRODUCTS ==> r == PRODUCTS[Lower(tag)]
    ensures Lower(tag) !in PRODUCTS ==> r == ProductInfo(Title(tag), 0)
    ensures r.price > 0 <==> Lower(tag) in PRODUCTS
    ensures Lower(tag) !in PRODUCTS ==> Lower(r.productName) == Lower(tag)
  {
    if Lower(tag) in PRODUCTS then PRODUCTS[Lower(tag)]
    else ProductInfo(Title(tag), 0)
  }

  /** The product does not depend on the letter case of the label. */
  lemma ProductInfoIgnoresCase(a: string, b: string)
    requires Lower(a) == Lower(b)
    ensures GetProductInfo(a) == GetProductInfo(b)
  {
    TitleOfCaseVariants(a, b);
  }

  /**
   * The table's keys are exactly the labels the cart tracker reports, each
   * with a positive price.
   */
  lemma ApprovedLabelsArePriced()
    ensures PRODUCTS.Keys == FrameStep.APPROVED_LABELS
    ensures forall l :: l in PRODUCTS ==> PRODUCTS[l].price > 0
  {
  }

  // ---------------------------------------------------------------------------
  // Storage paths and URLs (firebase.py lines 186, 295-320)
  // ---------------------------------------------------------------------------

  /** `os.path.basename(p)`: the text after the last '/'. */
  function Basename(p: string): (r: string)
    ensures EndsWith(p, r)
    ensures '/' !in r
    ensures |r| == |p| || p[|p| - |r| - 1] == '/'
  {
    if p == [] || p[|p| - 1] == '/' then []
    else Basename(p[..|p| - 1]) + [p[|p| - 1]]
  }

  /** The content type of an upload: PNG exactly for a name ending in ".png" in any letter case. */
  function ContentType(filename: string): (r: string)
    ensures r == "image/png" || r == "image/jpeg"
  {
    if EndsWith(Lower(filename), ".png") then "image/png" else "image/jpeg"
  }

  /** Lower-casing distributes over concatenation. */
  lemma LowerAppend(a: string, b: string)
    ensures Lower(a + b) == Lower(a) + Lower(b)
  {
    forall i | 0 <= i < |a + b|
      ensures Lower(a + b)[i] == (Lower(a) + Lower(b))[i]
    {
      if i < |a| {
        assert (a + b)[i] == a[i];
      } else {
        assert (a + b)[i] == b[i - |a|];
      }
    }
  }

  /** Any file whose extension spells ".png" in some letter case is uploaded as PNG. */
  lemma PngInAnyCase(stem: string, ext: string)
    requires Lower(ext) == ".png"
    ensures ContentType(stem + ext) == "image/png"
  {
    LowerAppend(stem, ext);
    var l := Lower(stem + ext);
    assert l[|l| - 4..] == Lower(ext);
  }

  /** Any other file is uploaded as JPEG. */
  lemma JpegOtherwise(filename: string)
    requires !EndsWith(Lower(filename), ".png")
    ensures ContentType(filename) == "image/jpeg"
  {
  }

  /** The Storage path of a cart's upload (line 308): the cart's folder, then the file name. */
  function BlobPath(sessionId: string, filename: string): (r: string)
    ensures "carts/" <= r && EndsWith(r, "/" + filename)
    ensures |r| == |"carts/"| + |sessionId| + 1 + |filename|
    ensures r[|"carts/"|..|r| - |filename| - 1] == sessionId
  {
    "carts/" + sessionId + "/" + filename
  }

  /** The text of `s` before its first '/'. */
  function UpToSlash(s: string): (r: string)
    ensures r <= s && '/' !in r
  {
    if s == [] || s[0] == '/' then [] else [s[0]] + UpToSlash(s[1..])
  }

  lemma {:induction false} UpToSlashOf(a: string, rest: string)
    requires '/' !in a
    ensures UpToSlash(a + "/" + rest) == a
  {
    if a != [] {
      assert a[0] in a;
      assert (a + "/" + rest)[1..] == a[1..] + "/" + rest;
      UpToSlashOf(a[1..], rest);
    }
  }

  /** For a session id without '/', the folder of an upload's path names its cart. */
  lemma BlobPathNamesItsCart(sessionId: string, filename: string)
    requires '/' !in sessionId
    ensures UpToSlash(BlobPath(sessionId, filename)[|"carts/"|..]) == sessionId
  {
    assert BlobPath(sessionId, filename)[|"carts/"|..] == sessionId + "/" + filename;
    UpToSlashOf(sessionId, filename);
  }

  /** Uploads of two different carts never share a Storage path, whatever the file names. */
  lemma BlobPathsOfCartsDiffer(a: string, fileA: string, b: string, fileB: string)
    requires '/' !in a && '/' !in b && a != b
    ensures BlobPath(a, fileA) != BlobPath(b, fileB)
  {
    BlobPathNamesItsCart(a, fileA);
    BlobPathNamesItsCart(b, fileB);
  }

  const STORAGE_URL_PREFIX: string := "https://firebasestorage.googleapis.com/v0/b/"

  /** The Firebase download URL of a blob (lines 318-320), with the encoder abstract. */
  function DownloadUrl(bucket: string, blobPath: string, token: string, quote: string -> string): (r: string)
    ensures STORAGE_URL_PREFIX + bucket + "/o/" <= r
    ensures EndsWith(r, "?alt=media&token=" + token)
  {
    var head := STORAGE_URL_PREFIX + bucket + "/o/";
    var r := head + quote(blobPath) + "?alt=media&token=" + token;
    assert r[..|head|] == head;
    r
  }

  /** Two downloads of the same blob with different tokens have different URLs. */
  lemma DownloadUrlTokenMatters(bucket: string, blobPath: string, t1: string, t2: string, quote: string -> string)
    requires |t1| == |t2| && t1 != t2
    ensures DownloadUrl(bucket, blobPath, t1, quote) != DownloadUrl(bucket, blobPath, t2, quote)
  {
    var u1 := DownloadUrl(bucket, blobPath, t1, quote);
    var u2 := DownloadUrl(bucket, blobPath, t2, quote);
    assert u1[|u1| - |t1|..] == t1;
    assert u2[|u2| - |t2|..] == t2;
  }

  // ---------------------------------------------------------------------------
  // Cart records
  // ---------------------------------------------------------------------------

  /** `price or 0.0`. */
  function PriceOrZero(price: Option<int>): int {
    if price.Some? then price.value else 0
  }

  /** The sum of the prices of the items. */
  function SumPrices(items: seq<CartItem>): int {
    if items == [] then 0 else items[0].price + SumPrices(items[1..])
  }

  /** The totals agree with the item list. */
  predicate Balanced(c: Cart) {
    c.totalItems == |c.items| && c.totalPrice == SumPrices(c.items)
  }

  /** The document create_cart writes (lines 50-59). */
  function NewCart(sessionId: string, metadata: Option<map<string, string>>): (c: Cart)
    ensures c.sessionId == sessionId && c.status == "active"
    ensures Balanced(c) && c.items == [] && c.totalItems == 0 && c.totalPrice == 0
    ensures metadata.None? ==> c.metadata == map[]
    ensures metadata.Some? ==> c.metadata == metadata.value
  {
    Cart(sessionId, "active", 0, 0, [], if metadata.Some? then metadata.value else map[])
  }

  /** `f"{label}_{stamp}"`. */
  function ItemId(tag: string, stamp: string): string {
    tag + "_" + stamp
  }

  /** An item id determines the clock reading inside it. */
  lemma ItemIdInjective(tag: string, a: string, b: string)
    requires ItemId(tag, a) == ItemId(tag, b)
    ensures a == b
  {
    assert a == ItemId(tag, a)[|tag| + 1..];
    assert b == ItemId(tag, b)[|tag| + 1..];
  }

  /** Whether add_item uploads the image at `imagePath` (lines 184-187). */
  predicate ShouldUpload(req: AddRequest, files: set<string>) {
    !Truthy(req.imageUrl) && Truthy(req.imagePath) && req.imagePath.value in files
  }

  /** The blob add_item uploads, when it uploads. */
  function UploadPath(sessionId: string, req: AddRequest): string
    requires req.imagePath.Some?
  {
    BlobPath(sessionId, Basename(req.imagePath.value))
  }

  /** The image URL add_item stores: the given URL, else the upload's URL (lines 184-187). */
  function FinalImageUrl(sessionId: string, req: AddRequest, files: set<string>, bucket: string,
                         token: string, quote: string -> string): (r: Option<string>)
    ensures Truthy(req.imageUrl) ==> r == req.imageUrl
    ensures !ShouldUpload(req, files) ==> r == req.imageUrl
    ensures ShouldUpload(req, files) ==> r.Some? && EndsWith(r.value, "?alt=media&token=" + token)
  {
    if ShouldUpload(req, files)
    then Some(DownloadUrl(bucket, UploadPath(sessionId, req), token, quote))
    else req.imageUrl
  }

  /** The item add_item appends (lines 194-203). */
  function NewItem(req: AddRequest, imageUrl: Option<string>, clock: Clock): (it: CartItem)
    ensures it.action == "add" && it.name == req.name && it.imageUrl == imageUrl
    ensures it.itemId == ItemId(req.name, clock.idStamp)
    ensures it.price == PriceOrZero(req.price) && (req.price.None? ==> it.price == 0)
    ensures !Truthy(req.productName) ==> it.productName == Title(req.name)
    ensures Truthy(req.productName) ==> it.productName == req.productName.value
    ensures it.confidence == req.confidence && it.timestamp == clock.isoStamp
  {
    CartItem(ItemId(req.name, clock.idStamp), req.name,
             if Truthy(req.productName) then req.productName.value else Title(req.name),
             PriceOrZero(req.price), req.confidence, imageUrl, clock.isoStamp, "add")
  }

  /** `firestore.ArrayUnion([x])`: append `x` unless an equal element is present. */
  function ArrayUnion(items: seq<CartItem>, x: CartItem): (r: seq<CartItem>)
    ensures x in r && forall y :: y in items ==> y in r
    ensures x !in items ==> r == items + [x]
    ensures x in items ==> r == items
  {
    if x in items then items else items + [x]
  }

  /**
   * The update add_item makes (lines 191-205): one more item counted, its
   * price added, and the item present with every earlier one kept.
   */
  function WithItem(c: Cart, it: CartItem): (r: Cart)
    ensures r.sessionId == c.sessionId && r.status == c.status && r.metadata == c.metadata
    ensures r.totalItems == c.totalItems + 1 && r.totalPrice == c.totalPrice + it.price
    ensures it in r.items && forall y :: y in c.items ==> y in r.items
  {
    c.(totalItems := c.totalItems + 1, totalPrice := c.totalPrice + it.price,
       items := ArrayUnion(c.items, it))
  }

  /** `_update_cart_total` (lines 277-293). */
  function UpdatedTotals(c: Cart, increment: int, setValue: Option<int>, priceIncrement: int): (r: Cart)
    ensures r.items == c.items && r.metadata == c.metadata && r.status == c.status
    ensures setValue.Some? ==> r.totalItems == setValue.value && r.totalPrice == 0
    ensures setValue.None? ==> r.totalItems - c.totalItems == increment
    ensures setValue.None? ==> r.totalPrice - c.totalPrice == priceIncrement
  {
    if setValue.Some? then c.(totalItems := setValue.value, totalPrice := 0)
    else c.(totalItems := c.totalItems + increment, totalPrice := c.totalPrice + priceIncrement)
  }

  /** The index of the first item named `tag`. */
  function FirstMatch(items: seq<CartItem>, tag: string): (r: Option<nat>)
    ensures r.Some? ==> r.value < |items| && items[r.value].name == tag
    ensures r.Some? ==> forall j :: 0 <= j < r.value ==> items[j].name != tag
    ensures r.None? ==> forall j :: 0 <= j < |items| ==> items[j].name != tag
  {
    if items == [] then None
    else if items[0].name == tag then Some(0)
    else
      var m := FirstMatch(items[1..], tag);
      if m.Some? then Some(m.value + 1) else None
  }

  /**
   * The items without the first one named `tag` (lines 230-236): one item
   * fewer when some item has the name, the same items otherwise.
   */
  function WithoutFirst(items: seq<CartItem>, tag: string): (r: seq<CartItem>)
    ensures FirstMatch(items, tag).Some? ==> |r| == |items| - 1
    ensures FirstMatch(items, tag).None? ==> r == items
    ensures forall x :: x in r ==> x in items
  {
    if items == [] then []
    else if items[0].name == tag then items[1..]
    else [items[0]] + WithoutFirst(items[1..], tag)
  }

  /** Dropping the first match removes exactly the item at its index and keeps the rest in order. */
  lemma {:induction false} WithoutFirstAt(items: seq<CartItem>, tag: string, k: nat)
    requires k < |items| && items[k].name == tag
    requires forall j :: 0 <= j < k ==> items[j].name != tag
    ensures WithoutFirst(items, tag) == items[..k] + items[k + 1..]
  {
    if k > 0 {
      WithoutFirstAt(items[1..], tag, k - 1);
      assert items[1..][..k - 1] == items[1..k];
      assert items[1..][k..] == items[k + 1..];
      assert [items[0]] + items[1..k] == items[..k];
    }
  }

  /** Without a match, nothing is removed. */
  lemma {:induction false} WithoutFirstNone(items: seq<CartItem>, tag: string)
    requires forall j :: 0 <= j < |items| ==> items[j].name != tag
    ensures WithoutFirst(items, tag) == items
  {
    if items != [] {
      WithoutFirstNone(items[1..], tag);
    }
  }

  /** Both cases of WithoutFirst by the first matching index. */
  lemma WithoutFirstSpec(items: seq<CartItem>, tag: string)
    ensures FirstMatch(items, tag).None? ==> WithoutFirst(items, tag) == items
    ensures FirstMatch(items, tag).Some? ==>
      var k := FirstMatch(items, tag).value;
      WithoutFirst(items, tag) == items[..k] + items[k + 1..]
  {
    var m := FirstMatch(items, tag);
    if m.None? {
      WithoutFirstNone(items, tag);
    } else {
      WithoutFirstAt(items, tag, m.value);
    }
  }

  /**
   * The `for i, item in enumerate(items)` loop that pops the first item
   * named `tag` and breaks (lines 232-236).
   */
  method RemoveFirstMatch(items: seq<CartItem>, tag: string) returns (r: seq<CartItem>)
    ensures r == WithoutFirst(items, tag)
  {
    r := items;
    var i := 0;
    while i < |r|
      invariant 0 <= i <= |items| && r == items
      invariant forall j :: 0 <= j < i ==> items[j].name != tag
    {
      if r[i].name == tag {
        WithoutFirstAt(items, tag, i);
        r := r[..i] + r[i + 1..];
        return;
      }
      i := i + 1;
    }
    WithoutFirstNone(items, tag);
  }

  /**
   * The whole of remove_item on an existing cart (lines 227-240): the totals
   * go down by one item and the passed price whether or not an item
   * matched; the items lose the first match only.
   */
  function Removed(c: Cart, tag: string, price: Option<int>): (r: Cart)
    ensures r.sessionId == c.sessionId && r.status == c.status && r.metadata == c.metadata
    ensures r.totalItems == c.totalItems - 1 && r.totalPrice == c.totalPrice - PriceOrZero(price)
    ensures |r.items| == |c.items| - (if FirstMatch(c.items, tag).Some? then 1 else 0)
  {
    var c1 := UpdatedTotals(c, -1, None, -PriceOrZero(price));
    c1.(items := WithoutFirst(c1.items, tag))
  }

  /** clear_cart_items on an existing cart (lines 267-273): the totals go to 0, the items stay. */
  function Cleared(c: Cart): (r: Cart)
    ensures r.totalItems == 0 && r.totalPrice == 0
    ensures r.items == c.items && r.sessionId == c.sessionId && r.status == c.status
  {
    UpdatedTotals(c, 0, Some(0), 0)
  }

  lemma {:induction false} SumPricesAppend(items: seq<CartItem>, x: CartItem)
    ensures SumPrices(items + [x]) == SumPrices(items) + x.price
  {
    if items != [] {
      assert (items + [x])[1..] == items[1..] + [x];
      SumPricesAppend(items[1..], x);
    }
  }

  lemma {:induction false} SumPricesSplit(a: seq<CartItem>, b: seq<CartItem>)
    ensures SumPrices(a + b) == SumPrices(a) + SumPrices(b)
  {
    if a != [] {
      assert (a + b)[0] == a[0];
      assert (a + b)[1..] == a[1..] + b;
      SumPricesSplit(a[1..], b);
    } else {
      assert a + b == b;
    }
  }

  /** Appending a new item keeps the totals in agreement with the items. */
  lemma AddKeepsBalanced(c: Cart, it: CartItem)
    requires Balanced(c) && it !in c.items
    ensures Balanced(WithItem(c, it))
    ensures WithItem(c, it).items == c.items + [it]
  {
    SumPricesAppend(c.items, it);
  }

  /**
   * On a balanced cart, remove_item leaves it balanced exactly when some
   * item has the label and the first such item has the price passed in:
   * the totals are decremented even when nothing matched.
   */
  lemma RemoveBalancedIff(c: Cart, tag: string, price: Option<int>)
    requires Balanced(c)
    ensures Balanced(Removed(c, tag, price)) <==>
      FirstMatch(c.items, tag).Some? && c.items[FirstMatch(c.items, tag).value].price == PriceOrZero(price)
  {
    WithoutFirstSpec(c.items, tag);
    var m := FirstMatch(c.items, tag);
    if m.Some? {
      SumPricesWithout(c.items, m.value);
    }
  }

  /** Dropping the item at index `k` lowers the price sum by its price. */
  lemma SumPricesWithout(items: seq<CartItem>, k: nat)
    requires k < |items|
    ensures SumPrices(items[..k] + items[k + 1..]) == SumPrices(items) - items[k].price
  {
    var before, rest := items[..k], items[k..];
    assert items == before + rest;
    SumPricesSplit(before, rest);
    assert rest[0] == items[k] && rest[1..] == items[k + 1..];
    SumPricesSplit(before, items[k + 1..]);
  }

  /** On a balanced cart, clear_cart_items leaves it balanced exactly when it held no items. */
  lemma ClearBalancedIff(c: Cart)
    requires Balanced(c)
    ensures Balanced(Cleared(c)) <==> c.items == []
  {
  }

  // ---------------------------------------------------------------------------
  // The returned item id, as the source computes it
  // ---------------------------------------------------------------------------

  /**
   * The id add_item returns (line 207): built from a fresh clock reading, so
   * it is the stored item's id exactly when the clock has not moved.
   */
  function ReturnedIdAsWritten(tag: string, clock: Clock): (r: string)
    ensures r == ItemId(tag, clock.idStamp) <==> clock.returnStamp == clock.idStamp
  {
    var r := ItemId(tag, clock.returnStamp);
    if r == ItemId(tag, clock.idStamp) then
      ItemIdInjective(tag, clock.returnStamp, clock.idStamp);
      r
    else r
  }

  /**
   * Whenever the clock has moved between line 195 and line 207, the id
   * add_item returns is not the id of the item it stored.
   */
  lemma ReturnedIdMissesStoredItem(req: AddRequest, imageUrl: Option<string>, clock: Clock)
    requires clock.returnStamp != clock.idStamp
    ensures ReturnedIdAsWritten(req.name, clock) != NewItem(req, imageUrl, clock).itemId
  {
  }

  // ---------------------------------------------------------------------------
  // The manager
  // ---------------------------------------------------------------------------

  /** FirebaseCartManager over in-memory stand-ins for the `carts` collection and the Storage bucket. */
  class CartStore {
    var carts: map<string, Cart>
    var blobs: map<string, Blob>
    const bucket: string

    /** Every cart is stored under its own session id. */
    ghost predicate Valid()
      reads this
    {
      forall k :: k in carts ==> carts[k].sessionId == k
    }

    constructor (bucket: string)
      ensures Valid()
      ensures carts == map[] && blobs == map[] && this.bucket == bucket
    {
      carts := map[];
      blobs := map[];
      this.bucket := bucket;
    }

    /** create_cart (lines 38-62): writes, or overwrites, the default cart document. */
    method CreateCart(sessionId: string, metadata: Option<map<string, string>>) returns (cart: Cart)
      requires Valid()
      modifies this
      ensures Valid()
      ensures cart == NewCart(sessionId, metadata)
      ensures carts == old(carts)[sessionId := cart] && blobs == old(blobs)
    {
      cart := NewCart(sessionId, metadata);
      carts := carts[sessionId := cart];
    }

    /** upload_image_to_storage (lines 295-320). */
    method UploadImage(localPath: string, sessionId: string, filename: string, token: string,
                       quote: string -> string) returns (url: string)
      modifies this
      ensures carts == old(carts)
      ensures blobs == old(blobs)[BlobPath(sessionId, filename) := Blob(localPath, ContentType(filename), token)]
      ensures url == DownloadUrl(bucket, BlobPath(sessionId, filename), token, quote)
    {
      var path := "carts/" + sessionId + "/" + filename;
      var contentType := "image/jpeg";
      if EndsWith(Lower(filename), ".png") {
        contentType := "image/png";
      }
      blobs := blobs[path := Blob(localPath, contentType, token)];
      url := STORAGE_URL_PREFIX + bucket + "/o/" + quote(path) + "?alt=media&token=" + token;
    }

    /**
     * add_item (lines 164-207), returning the id of the stored item, or
     * None when the cart does not exist. The upload happens before the cart
     * update, so it also happens for a missing cart.
     */
    method AddItem(sessionId: string, req: AddRequest, files: set<string>, token: string,
                   quote: string -> string, clock: Clock) returns (id: Option<string>)
      requires Valid()
      modifies this
      ensures Valid()
      ensures ShouldUpload(req, files) ==>
        blobs == old(blobs)[UploadPath(sessionId, req) :=
          Blob(req.imagePath.value, ContentType(Basename(req.imagePath.value)), token)]
      ensures !ShouldUpload(req, files) ==> blobs == old(blobs)
      ensures id.Some? <==> sessionId in old(carts)
      ensures id.None? ==> carts == old(carts)
      ensures id.Some? ==>
        var it := NewItem(req, FinalImageUrl(sessionId, req, files, bucket, token, quote), clock);
        && carts == old(carts)[sessionId := WithItem(old(carts)[sessionId], it)]
        && id.value == it.itemId && it in carts[sessionId].items
    {
      var finalUrl := req.imageUrl;
      if !Truthy(req.imageUrl) && Truthy(req.imagePath) && req.imagePath.value in files {
        var filename := Basename(req.imagePath.value);
        var url := UploadImage(req.imagePath.value, sessionId, filename, token, quote);
        finalUrl := Some(url);
      }
      if sessionId !in carts {
        return None;
      }
      var it := NewItem(req, finalUrl, clock);
      carts := carts[sessionId := WithItem(carts[sessionId], it)];
      id := Some(it.itemId);
    }

    /** `_update_cart_total` (lines 277-293); false when the cart does not exist. */
    method UpdateCartTotal(sessionId: string, increment: int, setValue: Option<int>, priceIncrement: int)
      returns (found: bool)
      requires Valid()
      modifies this
      ensures Valid()
      ensures found <==> sessionId in old(carts)
      ensures blobs == old(blobs)
      ensures found ==> carts == old(carts)[sessionId := UpdatedTotals(old(carts)[sessionId], increment, setValue, priceIncrement)]
      ensures !found ==> carts == old(carts)
    {
      if sessionId !in carts {
        return false;
      }
      var c := carts[sessionId];
      if setValue.Some? {
        c := c.(totalItems := setValue.value, totalPrice := 0);
      } else {
        c := c.(totalItems := c.totalItems + increment, totalPrice := c.totalPrice + priceIncrement);
      }
      carts := carts[sessionId := c];
      found := true;
    }

    /**
     * remove_item (lines 209-242): decrements the totals, then drops the
     * first item with the label; None when the cart does not exist.
     */
    method RemoveItem(sessionId: string, tag: string, price: Option<int>) returns (r: Option<string>)
      requires Valid()
      modifies this
      ensures Valid()
      ensures blobs == old(blobs)
      ensures r.Some? <==> sessionId in old(carts)
      ensures r.Some? ==> r.value == tag + "_removed"
      ensures r.Some? ==> carts == old(carts)[sessionId := Removed(old(carts)[sessionId], tag, price)]
      ensures r.None? ==> carts == old(carts)
    {
      var found := UpdateCartTotal(sessionId, -1, None, -PriceOrZero(price));
      if !found {
        return None;
      }
      var cart := carts[sessionId];
      var items := RemoveFirstMatch(cart.items, tag);
      carts := carts[sessionId := cart.(items := items)];
      r := Some(tag + "_removed");
    }

    /** get_cart_items (lines 244-255): the items of the cart, or none for a missing cart. */
    method GetCartItems(sessionId: string) returns (items: seq<CartItem>)
      requires Valid()
      ensures sessionId in carts ==> items == carts[sessionId].items
      ensures sessionId !in carts ==> items == []
      ensures forall c :: c in carts.Values && c.sessionId == sessionId ==> items == c.items
    {
      var cart := Lookup(carts, sessionId);
      items := if cart.Some? then cart.value.items else [];
    }

    /**
     * clear_cart_items (lines 257-273): the number of items before the
     * call; the totals go to 0 and the items are kept. None when the cart
     * does not exist.
     */
    method ClearCartItems(sessionId: string) returns (count: Option<nat>)
      requires Valid()
      modifies this
      ensures Valid()
      ensures blobs == old(blobs)
      ensures count.Some? <==> sessionId in old(carts)
      ensures count.Some? ==> count.value == |old(carts)[sessionId].items|
      ensures count.Some? ==> carts == old(carts)[sessionId := Cleared(old(carts)[sessionId])]
      ensures count.None? ==> carts == old(carts)
    {
      var cart := Lookup(carts, sessionId);
      var n := if cart.Some? then |cart.value.items| else 0;
      var found := UpdateCartTotal(sessionId, 0, Some(0), 0);
      if !found {
        return None;
      }
      count := Some(n);
    }
  }
}

=== FILE: webcam.dfy ===
/**
 * The cart tracker loop of backend/webcam.py as a class whose fields are the
 * script's module-level maps and set, and whose ProcessFrame method is one
 * iteration of the `while True` loop with the detector's boxes as input.
 *
 * The counting loop visits the detected labels in an unspecified order and
 * the threshold test reads the label it visited last; ProcessFrame makes
 * that order a nondeterministic choice and returns the label the test read
 * as `probe`.
 */
module Webcam {
  import opened Common
  import opened FrameStep
  import opened TrackHistory

  class CartTracker {
    var frameCounts: map<string, int>
    var confirmed: set<string>
    var lastY: map<string, int>
    var directionScore: map<string, int>
    var bestCrop: map<string, Crop>
    var bestArea: map<string, int>

    /** Every frame processed so far. */
    ghost var frames: History

    function State(): TrackState
      reads this
    {
      TrackState(frameCounts, confirmed, lastY, directionScore, bestCrop, bestArea)
    }

    ghost predicate Valid()
      reads this
    {
      Consistent(State(), frames)
    }

    constructor ()
      ensures Valid()
      ensures frames == [] && State() == Initial()
    {
      frameCounts, confirmed, lastY := map[], {}, map[];
      directionScore, bestCrop, bestArea := map[], map[], map[];
      frames := [];
      new;
      InitialConsistent();
    }

    /**
     * Processes the detections of frame number `frame`. The new maps are
     * those of the frame step for the label the threshold test read, which
     * is one of the detected labels (none when nothing approved was seen).
     */
    method ProcessFrame(frame: nat, detections: seq<Detection>) returns (event: Event, probe: Option<string>)
      requires Valid()
      modifies this
      ensures Valid()
      ensures frames == old(frames) + [detections]
      ensures ValidProbe(detections, probe)
      ensures State() == Step(old(State()), frame, detections, probe).state
      ensures event == Step(old(State()), frame, detections, probe).event
    {
      ghost var s0 := State();
      var detected := ScanFrame(frame, detections);
      ResetAbsent(detected);
      probe := CountDetected(detected);
      assert State() == Counted(s0, frame, detections);
      event := TestThresholds(probe);
      StepIsDecideCounted(s0, frame, detections, probe);
      StepConsistent(s0, frames, frame, detections, probe);
      frames := frames + [detections];
    }

    /** The box loop (webcam.py lines 35-61); returns `detected_this_frame`. */
    method ScanFrame(frame: nat, detections: seq<Detection>) returns (detected: set<string>)
      modifies this
      ensures frames == old(frames)
      ensures detected == Detected(detections)
      ensures State() == ScanBoxes(old(State()), frame, detections)
    {
      detected := {};
      var i := 0;
      while i < |detections|
        invariant 0 <= i <= |detections|
        invariant frames == old(frames)
        invariant detected == Detected(detections[..i])
        invariant State() == ScanBoxes(old(State()), frame, detections[..i])
      {
        var d := detections[i];
        assert detections[..i + 1][..i] == detections[..i];
        ScanOne(frame, d);
        if d.name in APPROVED_LABELS {
          detected := detected + {d.name};
        }
        i := i + 1;
      }
      assert detections[..i] == detections;
    }

    /** The box loop body for one box (webcam.py lines 38-61). */
    method ScanOne(frame: nat, d: Detection)
      modifies this
      ensures frames == old(frames)
      ensures State() == ScanBox(old(State()), frame, d)
    {
      if d.name in APPROVED_LABELS {
        var area := Area(d);
        if area > Get(bestArea, d.name) {
          bestArea := bestArea[d.name := area];
          bestCrop := bestCrop[d.name := Crop(frame, d)];
        }
        var centerY := CenterY(d);
        if d.name in lastY {
          var delta := centerY - lastY[d.name];
          directionScore := directionScore[d.name := Get(directionScore, d.name) + delta];
        }
        lastY := lastY[d.name := centerY];
      }
    }

    /** The reset loop (webcam.py lines 64-68), over a snapshot of the counted labels. */
    method ResetAbsent(detected: set<string>)
      modifies this
      ensures frames == old(frames)
      ensures State() == Reset(old(State()), detected)
    {
      ghost var s1 := State();
      var keys := frameCounts.Keys;
      var todo := keys;
      ResetNone(s1);
      while todo != {}
        invariant todo <= keys
        invariant frames == old(frames)
        invariant State() == ResetLabels(s1, (keys - todo) - detected)
        decreases todo
      {
        var l :| l in todo;
        ResetOneMore(s1, (keys - todo) - detected, l);
        if l !in detected {
          assert (keys - (todo - {l})) - detected == (keys - todo) - detected + {l};
          ResetOne(l);
        } else {
          assert (keys - (todo - {l})) - detected == (keys - todo) - detected;
        }
        todo := todo - {l};
      }
      assert (keys - todo) - detected == s1.frameCounts.Keys - detected;
    }

    /** The reset loop body for a label the frame did not show (webcam.py lines 66-68). */
    method ResetOne(l: string)
      modifies this
      ensures frames == old(frames)
      ensures State() == old(State()).(frameCounts := old(frameCounts)[l := 0],
                                       directionScore := old(directionScore)[l := 0],
                                       lastY := old(lastY) - {l})
    {
      frameCounts := frameCounts[l := 0];
      directionScore := directionScore[l := 0];
      lastY := lastY - {l};
    }

    /**
     * The counting loop (webcam.py lines 71-72), visiting the labels in an
     * unspecified order; `probe` is the label it visited last.
     */
    method CountDetected(detected: set<string>) returns (probe: Option<string>)
      modifies this
      ensures frames == old(frames)
      ensures State() == old(State()).(frameCounts := Bump(old(frameCounts), detected))
      ensures probe.None? <==> detected == {}
      ensures probe.Some? ==> probe.value in detected
    {
      ghost var s2 := State();
      var pending := detected;
      probe := None;
      BumpNone(s2.frameCounts);
      while pending != {}
        invariant pending <= detected
        invariant frames == old(frames)
        invariant State() == s2.(frameCounts := Bump(s2.frameCounts, detected - pending))
        invariant probe.None? ==> pending == detected
        invariant probe.Some? ==> probe.value in detected
        decreases pending
      {
        var l :| l in pending;
        BumpOneMore(s2.frameCounts, detected - pending, l);
        assert detected - (pending - {l}) == (detected - pending) + {l};
        BumpOne(l);
        probe := Some(l);
        pending := pending - {l};
      }
      assert detected - pending == detected;
    }

    /** The counting loop body (webcam.py line 72). */
    method BumpOne(l: string)
      modifies this
      ensures frames == old(frames)
      ensures State() == old(State()).(frameCounts := old(frameCounts)[l := Get(old(frameCounts), l) + 1])
    {
      frameCounts := frameCounts[l := Get(frameCounts, l) + 1];
    }

    /** The threshold test (webcam.py lines 75-91) for the label the counting loop visited last. */
    method TestThresholds(probe: Option<string>) returns (event: Event)
      modifies this
      ensures frames == old(frames)
      ensures State() == Decide(old(State()), probe).state
      ensures event == Decide(old(State()), probe).event
    {
      event := NoEvent;
      if probe.Some? {
        var l := probe.value;
        if Get(frameCounts, l) >= FRAME_THRESHOLD {
          if Get(directionScore, l) > DIRECTION_THRESHOLD && l !in confirmed {
            confirmed := confirmed + {l};
            event := Added(l, Lookup(bestCrop, l));
          } else if Get(directionScore, l) < -DIRECTION_THRESHOLD && l in confirmed {
            confirmed := confirmed - {l};
            event := Removed(l, Lookup(bestCrop, l));
          }
        }
      }
    }
  }

  lemma ResetNone(s: TrackState)
    ensures ResetLabels(s, {}) == s
  {
    var r := ResetLabels(s, {});
    assert r.frameCounts == s.frameCounts;
    assert r.directionScore == s.directionScore;
    assert r.lastY == s.lastY;
  }

  /** Resetting one more counted label is three single-key updates. */
  lemma ResetOneMore(s: TrackState, gone: set<string>, l: string)
    requires gone <= s.frameCounts.Keys && l in s.frameCounts
    ensures var r := ResetLabels(s, gone);
      ResetLabels(s, gone + {l})
        == r.(frameCounts := r.frameCounts[l := 0],
              directionScore := r.directionScore[l := 0],
              lastY := r.lastY - {l})
  {
    var r := ResetLabels(s, gone);
    var r' := ResetLabels(s, gone + {l});
    assert r'.frameCounts == r.frameCounts[l := 0];
    assert r'.directionScore == r.directionScore[l := 0];
    assert r'.lastY == r.lastY - {l};
  }

  lemma BumpNone(counts: map<string, int>)
    ensures Bump(counts, {}) == counts
  {
  }

  /** Counting one more label is a single-key update. */
  lemma BumpOneMore(counts: map<string, int>, done: set<string>, l: string)
    requires l !in done
    ensures Bump(counts, done + {l}) == Bump(counts, done)[l := Get(Bump(counts, done), l) + 1]
  {
    assert Bump(counts, done + {l}) == Bump(counts, done)[l := Get(Bump(counts, done), l) + 1];
  }

  // ---------------------------------------------------------------------------
  // The label read by the threshold test, as the source binds it
  // ---------------------------------------------------------------------------

  /**
   * The value of the loop variable `label` when webcam.py line 75 reads it:
   * the label the counting loop visited last; when that loop ran no
   * iteration, the last key visited by the reset loop; when that one ran
   * none either, the name of the last box of the frame (approved or not);
   * and otherwise whatever a previous iteration of the `while` loop left
   * there. None means the name is unbound and the read raises NameError.
   */
  function ThresholdLabelAsWritten(previous: Option<string>, boxNames: seq<string>,
                                   resetOrder: seq<string>, countOrder: seq<string>): (r: Option<string>)
    ensures r.None? <==> previous.None? && boxNames == [] && resetOrder == [] && countOrder == []
  {
    if countOrder != [] then Some(countOrder[|countOrder| - 1])
    else if resetOrder != [] then Some(resetOrder[|resetOrder| - 1])
    else if boxNames != [] then Some(boxNames[|boxNames| - 1])
    else previous
  }

  /** The detector names of a frame's boxes, approved or not, in enumeration order. */
  function BoxNames(boxes: seq<Detection>): seq<string> {
    seq(|boxes|, i requires 0 <= i < |boxes| => boxes[i].name)
  }

  /**
   * On the tracker's first frame nothing is counted yet, so the reset loop
   * runs no iteration and no earlier frame has bound `label`; the counting
   * loop visits the frame's detected labels in some order. Then `label` is
   * unbound at the threshold test exactly when the frame has no box at all.
   */
  lemma FirstFrameWithoutBoxesUnbound(boxes: seq<Detection>, resetOrder: seq<string>, countOrder: seq<string>)
    requires forall l :: l in resetOrder <==> l in Initial().frameCounts
    requires forall l :: l in countOrder <==> l in Detected(boxes)
    ensures ThresholdLabelAsWritten(None, BoxNames(boxes), resetOrder, countOrder).None? <==> boxes == []
  {
    EmptyEnumeration(resetOrder, Initial().frameCounts.Keys);
    EmptyEnumeration(countOrder, Detected(boxes));
    assert |BoxNames(boxes)| == |boxes|;
  }

  /** A loop over an enumeration of a set runs no iteration exactly when the set is empty. */
  lemma EmptyEnumeration(order: seq<string>, labels: set<string>)
    requires forall l :: l in order <==> l in labels
    ensures order == [] <==> labels == {}
  {
    if order != [] {
      assert order[0] in labels;
    }
  }

  /**
   * Whenever `label` is bound but the frame detected nothing approved, the
   * label it names has count 0 at the threshold test, so nothing fires:
   * apart from the unbound case, the source behaves as the model's step
   * with no probe.
   */
  lemma NothingDetectedNothingFires(s: TrackState, frame: nat, boxes: seq<Detection>, l: string)
    requires Detected(boxes) == {}
    ensures Get(Counted(s, frame, boxes).frameCounts, l) == 0
    ensures Decide(Counted(s, frame, boxes), Some(l)) == Decide(Counted(s, frame, boxes), None)
  {
    var s1 := ScanBoxes(s, frame, boxes);
    ScanBoxesFrame(s, frame, boxes);
    ResetLabel(s1, {}, l);
    BumpLabel(Reset(s1, {}).frameCounts, {}, l);
  }
}

=== FILE: webcam_frame.dfy ===
/**
 * One frame of the cart tracker of backend/webcam.py, as pure functions.
 *
 * The tracker keeps, per detection label, a frame counter, an accumulated
 * vertical displacement (the direction score), the last box centre, and the
 * largest box seen so far with its crop; plus the set of labels believed to
 * be in the cart. A frame is processed in four phases, in source order:
 * scan the boxes (ScanBoxes), reset labels that disappeared (Reset), count
 * the labels seen (Bump), and test the thresholds for one label (Decide).
 *
 * The threshold test in the source sits after the counting loop rather than
 * inside it, so it reads whichever label that loop visited last; set
 * iteration order is unspecified, so that label is the parameter `probe`,
 * any member of the frame's detected set (None when the set is empty).
 */
module FrameStep {
  import opened Common

  const FRAME_THRESHOLD := 10
  const DIRECTION_THRESHOLD := 30

  const APPROVED_LABELS: set<string> :=
    {"apple", "banana", "orange", "broccoli", "carrot", "bottle", "cup", "bowl", "book"}

  /** One detector box, with integer pixel corners. */
  datatype Detection = Detection(name: string, x1: int, y1: int, x2: int, y2: int)

  /** The image cut out of frame number `frame` along `box`; its pixels are not modelled. */
  datatype Crop = Crop(frame: nat, box: Detection)

  datatype Event =
    | NoEvent
    | Added(name: string, crop: Option<Crop>)
    | Removed(name: string, crop: Option<Crop>)

  /** The module-level state: three defaultdict(int)s, two dicts and a set. */
  datatype TrackState = TrackState(
    frameCounts: map<string, int>,
    confirmed: set<string>,
    lastY: map<string, int>,
    directionScore: map<string, int>,
    bestCrop: map<string, Crop>,
    bestArea: map<string, int>)

  datatype Outcome = Outcome(state: TrackState, event: Event)

  function Initial(): TrackState {
    TrackState(map[], {}, map[], map[], map[], map[])
  }

  function Area(d: Detection): int {
    (d.x2 - d.x1) * (d.y2 - d.y1)
  }

  /** `(y1 + y2) // 2`; for a positive divisor Dafny's division is floor division too. */
  function CenterY(d: Detection): int {
    (d.y1 + d.y2) / 2
  }

  function Last(s: seq<int>): int
    requires s != []
  {
    s[|s| - 1]
  }

  /** The labels added to `detected_this_frame` by the box loop. */
  function Detected(boxes: seq<Detection>): (r: set<string>)
    ensures r <= APPROVED_LABELS
  {
    if boxes == [] then {}
    else
      var d := boxes[|boxes| - 1];
      Detected(boxes[..|boxes| - 1]) + (if d.name in APPROVED_LABELS then {d.name} else {})
  }

  /** The centres of the approved boxes labelled `l`, in enumeration order. */
  function CentersOf(boxes: seq<Detection>, l: string): seq<int> {
    if boxes == [] then []
    else
      var d := boxes[|boxes| - 1];
      CentersOf(boxes[..|boxes| - 1], l)
        + (if d.name == l && l in APPROVED_LABELS then [CenterY(d)] else [])
  }

  /** The larger of `acc` and the areas of the approved boxes labelled `l`. */
  function MaxAreaOf(acc: int, boxes: seq<Detection>, l: string): int {
    if boxes == [] then acc
    else
      var d := boxes[|boxes| - 1];
      var m := MaxAreaOf(acc, boxes[..|boxes| - 1], l);
      if d.name == l && l in APPROVED_LABELS && Area(d) > m then Area(d) else m
  }

  /**
   * The box loop body for one box (webcam.py lines 38-61): an unapproved
   * box changes nothing; an approved one records its centre as its label's
   * last centre and never lowers the label's best area; the counters and
   * the confirmed set are untouched either way.
   */
  function ScanBox(s: TrackState, frame: nat, d: Detection): (r: TrackState)
    ensures d.name !in APPROVED_LABELS ==> r == s
    ensures r.frameCounts == s.frameCounts && r.confirmed == s.confirmed
    ensures d.name in APPROVED_LABELS ==>
      r.lastY == s.lastY[d.name := CenterY(d)] && Get(r.bestArea, d.name) >= Get(s.bestArea, d.name)
  {
    if d.name !in APPROVED_LABELS then s
    else
      var l := d.name;
      var area := Area(d);
      var s1 :=
        if area > Get(s.bestArea, l)
        then s.(bestArea := s.bestArea[l := area], bestCrop := s.bestCrop[l := Crop(frame, d)])
        else s;
      var c := CenterY(d);
      var s2 :=
        if l in s1.lastY
        then s1.(directionScore := s1.directionScore[l := Get(s1.directionScore, l) + (c - s1.lastY[l])])
        else s1;
      s2.(lastY := s2.lastY[l := c])
  }

  /** The whole box loop, boxes taken in enumeration order; it never touches the counters or `confirmed`. */
  function ScanBoxes(s: TrackState, frame: nat, boxes: seq<Detection>): (r: TrackState)
    ensures r.frameCounts == s.frameCounts && r.confirmed == s.confirmed
  {
    if boxes == [] then s
    else ScanBox(ScanBoxes(s, frame, boxes[..|boxes| - 1]), frame, boxes[|boxes| - 1])
  }

  /** The reset of every label in `gone` (webcam.py lines 66-68). */
  function ResetLabels(s: TrackState, gone: set<string>): TrackState {
    s.(frameCounts := map l | l in s.frameCounts :: if l in gone then 0 else s.frameCounts[l],
       directionScore := map l | l in s.directionScore.Keys + gone :: if l in gone then 0 else s.directionScore[l],
       lastY := map l | l in s.lastY && l !in gone :: s.lastY[l])
  }

  /**
   * The reset loop (webcam.py lines 64-68): every counted label absent from
   * the frame ends at count 0 with no last centre, every detected one keeps
   * its count, and no label is added to or dropped from the counters.
   */
  function Reset(s: TrackState, detected: set<string>): (r: TrackState)
    ensures r.confirmed == s.confirmed && r.bestArea == s.bestArea && r.bestCrop == s.bestCrop
    ensures r.frameCounts.Keys == s.frameCounts.Keys
    ensures forall l :: l in r.frameCounts ==>
      r.frameCounts[l] == (if l in detected then s.frameCounts[l] else 0)
    ensures forall l :: l in s.frameCounts && l !in detected ==> l !in r.lastY
  {
    ResetLabels(s, s.frameCounts.Keys - detected)
  }

  /**
   * `frame_counts[label] += 1` for every label in `labels` (webcam.py lines
   * 71-72): each of them gains one (a missing one reads as 0), the others
   * keep their counts.
   */
  function Bump(counts: map<string, int>, labels: set<string>): (r: map<string, int>)
    ensures r.Keys == counts.Keys + labels
    ensures forall l :: Get(r, l) == Get(counts, l) + (if l in labels then 1 else 0)
  {
    map l | l in counts.Keys + labels :: if l in labels then Get(counts, l) + 1 else counts[l]
  }

  /**
   * The threshold test for the probed label (webcam.py lines 75-91): an
   * event names the probed label and needs FRAME_THRESHOLD counted frames;
   * it changes only the confirmed set, and without an event nothing changes.
   */
  function Decide(s: TrackState, probe: Option<string>): (r: Outcome)
    ensures r.state == s.(confirmed := r.state.confirmed)
    ensures r.event == NoEvent ==> r.state == s
    ensures r.event != NoEvent ==>
      probe.Some? && r.event.name == probe.value && Get(s.frameCounts, probe.value) >= FRAME_THRESHOLD
    ensures r.event.Added? ==> r.state.confirmed == s.confirmed + {r.event.name} && r.event.name !in s.confirmed
    ensures r.event.Removed? ==> r.state.confirmed == s.confirmed - {r.event.name} && r.event.name in s.confirmed
  {
    if probe.None? then Outcome(s, NoEvent)
    else
      var l := probe.value;
      if Get(s.frameCounts, l) >= FRAME_THRESHOLD then
        if Get(s.directionScore, l) > DIRECTION_THRESHOLD && l !in s.confirmed then
          Outcome(s.(confirmed := s.confirmed + {l}), Added(l, Lookup(s.bestCrop, l)))
        else if Get(s.directionScore, l) < -DIRECTION_THRESHOLD && l in s.confirmed then
          Outcome(s.(confirmed := s.confirmed - {l}), Removed(l, Lookup(s.bestCrop, l)))
        else Outcome(s, NoEvent)
      else Outcome(s, NoEvent)
  }

  /** The label the threshold test reads: one of the detected labels, or none. */
  predicate ValidProbe(boxes: seq<Detection>, probe: Option<string>) {
    match probe
    case None => Detected(boxes) == {}
    case Some(l) => l in Detected(boxes)
  }

  /**
   * One iteration of the `while True` loop, given the frame's detections:
   * an event names a label of this frame (for a valid probe), and the
   * confirmed set changes only with an event, by that label.
   */
  function Step(s: TrackState, frame: nat, boxes: seq<Detection>, probe: Option<string>): (r: Outcome)
    ensures ValidProbe(boxes, probe) && r.event != NoEvent ==> r.event.name in Detected(boxes)
    ensures r.event == NoEvent ==> r.state.confirmed == s.confirmed
    ensures r.event.Added? ==> r.state.confirmed == s.confirmed + {r.event.name}
    ensures r.event.Removed? ==> r.state.confirmed == s.confirmed - {r.event.name}
  {
    var detected := Detected(boxes);
    var s1 := ScanBoxes(s, frame, boxes);
    var s2 := Reset(s1, detected);
    Decide(s2.(frameCounts := Bump(s2.frameCounts, detected)), probe)
  }

  // ---------------------------------------------------------------------------
  // Well-formedness of every reachable state
  // ---------------------------------------------------------------------------

  /** What a reachable state satisfies for one label. */
  ghost predicate LabelWf(s: TrackState, l: string) {
    && (l in s.frameCounts ==> s.frameCounts[l] >= 0)
    && (l in s.lastY <==> Get(s.frameCounts, l) > 0)
    && (l !in s.lastY ==> Get(s.directionScore, l) == 0)
    && (l in s.bestArea ==> s.bestArea[l] > 0)
    && (l in s.bestCrop <==> l in s.bestArea)
    && (l in s.bestCrop ==> s.bestCrop[l].box.name == l && Area(s.bestCrop[l].box) == s.bestArea[l])
  }

  ghost predicate Wf(s: TrackState) {
    && s.frameCounts.Keys <= APPROVED_LABELS
    && s.confirmed <= APPROVED_LABELS
    && s.bestArea.Keys <= APPROVED_LABELS
    && s.directionScore.Keys <= s.frameCounts.Keys
    && forall l :: LabelWf(s, l)
  }

  lemma InitialWf()
    ensures Wf(Initial())
  {
    forall l ensures LabelWf(Initial(), l) { }
  }

  // ---------------------------------------------------------------------------
  // The box loop, label by label
  // ---------------------------------------------------------------------------

  /** A label is detected exactly when it is approved and some box carries it. */
  lemma {:induction false} DetectedMeans(boxes: seq<Detection>, l: string)
    ensures l in Detected(boxes) <==> CentersOf(boxes, l) != []
    ensures l in Detected(boxes) <==> l in APPROVED_LABELS && exists i :: 0 <= i < |boxes| && boxes[i].name == l
  {
    if boxes != [] {
      var init := boxes[..|boxes| - 1];
      DetectedMeans(init, l);
      if l in Detected(init) {
        var i :| 0 <= i < |init| && init[i].name == l;
        assert boxes[i].name == l;
      }
      if l in APPROVED_LABELS && (exists i :: 0 <= i < |boxes| && boxes[i].name == l) {
        var i :| 0 <= i < |boxes| && boxes[i].name == l;
        if i < |init| {
          assert init[i].name == l;
        }
      }
    }
  }

  /** The box loop changes neither the counters nor the confirmed set, and keys only the detected labels. */
  lemma {:induction false} ScanBoxesFrame(s: TrackState, frame: nat, boxes: seq<Detection>)
    ensures var s' := ScanBoxes(s, frame, boxes);
      && s'.frameCounts == s.frameCounts
      && s'.confirmed == s.confirmed
      && s'.directionScore.Keys <= s.directionScore.Keys + Detected(boxes)
      && s'.bestArea.Keys <= s.bestArea.Keys + Detected(boxes)
      && s'.lastY.Keys == s.lastY.Keys + Detected(boxes)
  {
    if boxes != [] {
      var init := boxes[..|boxes| - 1];
      ScanBoxesFrame(s, frame, init);
      ScanBoxKeys(ScanBoxes(s, frame, init), frame, boxes[|boxes| - 1]);
    }
  }

  /** One approved box gives its label a last centre, and possibly a score and a best area. */
  lemma ScanBoxKeys(s: TrackState, frame: nat, d: Detection)
    ensures var s', n := ScanBox(s, frame, d), if d.name in APPROVED_LABELS then {d.name} else {};
      && s'.directionScore.Keys <= s.directionScore.Keys + n
      && s'.bestArea.Keys <= s.bestArea.Keys + n
      && s'.lastY.Keys == s.lastY.Keys + n
  {
  }

  /** One box moves the last centre and the score of its own label only. */
  lemma ScanBoxCenters(s: TrackState, frame: nat, d: Detection, l: string)
    ensures var s' := ScanBox(s, frame, d);
      if d.name == l && l in APPROVED_LABELS then
        && s'.lastY == s.lastY[l := CenterY(d)]
        && Get(s'.directionScore, l)
           == Get(s.directionScore, l) + (if l in s.lastY then CenterY(d) - s.lastY[l] else 0)
      else
        && Lookup(s'.lastY, l) == Lookup(s.lastY, l)
        && Lookup(s'.directionScore, l) == Lookup(s.directionScore, l)
  {
  }

  /**
   * What the box loop does to the centre and score of one label: the last
   * centre becomes its last centre, and the displacement since the previous
   * centre (or since its first box, when it had none) is added to its score;
   * a label without approved boxes is not touched.
   */
  lemma {:induction false} ScanBoxesCenters(s: TrackState, frame: nat, boxes: seq<Detection>, l: string)
    ensures var s', c := ScanBoxes(s, frame, boxes), CentersOf(boxes, l);
      && (c == [] ==>
            && Lookup(s'.lastY, l) == Lookup(s.lastY, l)
            && Lookup(s'.directionScore, l) == Lookup(s.directionScore, l))
      && (c != [] ==>
            && l in s'.lastY
            && s'.lastY[l] == Last(c)
            && Get(s'.directionScore, l)
               == Get(s.directionScore, l) + Last(c) - (if l in s.lastY then s.lastY[l] else c[0]))
  {
    if boxes != [] {
      var init := boxes[..|boxes| - 1];
      ScanBoxesCenters(s, frame, init, l);
      ScanBoxCenters(ScanBoxes(s, frame, init), frame, boxes[|boxes| - 1], l);
    }
  }

  /** One box replaces the best area and crop of its own label only, and only when larger. */
  lemma ScanBoxArea(s: TrackState, frame: nat, d: Detection, l: string)
    ensures var s' := ScanBox(s, frame, d);
      if d.name == l && l in APPROVED_LABELS && Area(d) > Get(s.bestArea, l) then
        && s'.bestArea == s.bestArea[l := Area(d)]
        && s'.bestCrop == s.bestCrop[l := Crop(frame, d)]
      else
        && Lookup(s'.bestArea, l) == Lookup(s.bestArea, l)
        && Lookup(s'.bestCrop, l) == Lookup(s.bestCrop, l)
  {
  }

  /**
   * The best area of a label becomes the largest area among its boxes and
   * its old best; when it grew, the crop is that of a box of this frame with
   * exactly that area.
   */
  lemma {:induction false} ScanBoxesArea(s: TrackState, frame: nat, boxes: seq<Detection>, l: string)
    ensures var s' := ScanBoxes(s, frame, boxes);
      && Get(s'.bestArea, l) == MaxAreaOf(Get(s.bestArea, l), boxes, l)
      && (Get(s'.bestArea, l) == Get(s.bestArea, l) ==>
            Lookup(s'.bestArea, l) == Lookup(s.bestArea, l) && Lookup(s'.bestCrop, l) == Lookup(s.bestCrop, l))
      && (Get(s'.bestArea, l) > Get(s.bestArea, l) ==>
            && l in s'.bestArea && l in s'.bestCrop && s'.bestCrop[l].frame == frame
            && s'.bestCrop[l].box.name == l && Area(s'.bestCrop[l].box) == s'.bestArea[l])
  {
    if boxes != [] {
      var init := boxes[..|boxes| - 1];
      ScanBoxesArea(s, frame, init, l);
      MaxAreaOfGrows(Get(s.bestArea, l), init, l);
      ScanBoxArea(ScanBoxes(s, frame, init), frame, boxes[|boxes| - 1], l);
    }
  }

  /** Without approved boxes of a label, its best area stays as it was. */
  lemma {:induction false} MaxAreaOfNone(acc: int, boxes: seq<Detection>, l: string)
    requires CentersOf(boxes, l) == []
    ensures MaxAreaOf(acc, boxes, l) == acc
  {
    if boxes != [] {
      MaxAreaOfNone(acc, boxes[..|boxes| - 1], l);
    }
  }

  /** The best area of a label never shrinks during the box loop. */
  lemma {:induction false} MaxAreaOfGrows(acc: int, boxes: seq<Detection>, l: string)
    ensures MaxAreaOf(acc, boxes, l) >= acc
  {
    if boxes != [] {
      MaxAreaOfGrows(acc, boxes[..|boxes| - 1], l);
    }
  }

  // ---------------------------------------------------------------------------
  // The reset, counting and threshold phases, label by label
  // ---------------------------------------------------------------------------

  lemma ResetLabel(s: TrackState, detected: set<string>, l: string)
    ensures var r := Reset(s, detected);
      && r.confirmed == s.confirmed && r.bestArea == s.bestArea && r.bestCrop == s.bestCrop
      && r.frameCounts.Keys == s.frameCounts.Keys
      && r.directionScore.Keys == s.directionScore.Keys + (s.frameCounts.Keys - detected)
      && r.lastY.Keys <= s.lastY.Keys
      && (l in s.frameCounts && l !in detected ==>
            r.frameCounts[l] == 0 && Get(r.directionScore, l) == 0 && l !in r.lastY)
      && (!(l in s.frameCounts && l !in detected) ==>
            && Lookup(r.frameCounts, l) == Lookup(s.frameCounts, l)
            && Lookup(r.directionScore, l) == Lookup(s.directionScore, l)
            && Lookup(r.lastY, l) == Lookup(s.lastY, l))
  {
  }

  lemma BumpLabel(counts: map<string, int>, labels: set<string>, l: string)
    ensures Bump(counts, labels).Keys == counts.Keys + labels
    ensures Get(Bump(counts, labels), l) == if l in labels then Get(counts, l) + 1 else Get(counts, l)
    ensures l !in labels ==> Lookup(Bump(counts, labels), l) == Lookup(counts, l)
  {
  }

  /** The threshold test touches only the confirmed set. */
  lemma DecideOnlyConfirms(s: TrackState, probe: Option<string>)
    ensures Decide(s, probe).state == s.(confirmed := Decide(s, probe).state.confirmed)
  {
  }

  /** The state just before the threshold test. */
  function Counted(s: TrackState, frame: nat, boxes: seq<Detection>): TrackState {
    var r := Reset(ScanBoxes(s, frame, boxes), Detected(boxes));
    r.(frameCounts := Bump(r.frameCounts, Detected(boxes)))
  }

  lemma StepIsDecideCounted(s: TrackState, frame: nat, boxes: seq<Detection>, probe: Option<string>)
    ensures Step(s, frame, boxes, probe) == Decide(Counted(s, frame, boxes), probe)
    ensures Step(s, frame, boxes, probe).state == Counted(s, frame, boxes).(confirmed := Step(s, frame, boxes, probe).state.confirmed)
  {
    DecideOnlyConfirms(Counted(s, frame, boxes), probe);
  }

  // ---------------------------------------------------------------------------
  // A whole frame, label by label
  // ---------------------------------------------------------------------------

  /**
   * The effect of one frame on the counter, centre and score of one label:
   * a detected label's count goes up by one and its score takes in the
   * frame's displacement; an undetected label ends with count 0, score 0 and
   * no last centre.
   */
  lemma StepLabelTrack(s: TrackState, frame: nat, boxes: seq<Detection>, probe: Option<string>, l: string)
    requires Wf(s)
    ensures var s', c := Step(s, frame, boxes, probe).state, CentersOf(boxes, l);
      && (l in Detected(boxes) <==> c != [])
      && Get(s'.frameCounts, l) == (if c != [] then Get(s.frameCounts, l) + 1 else 0)
      && (l in s'.lastY <==> c != [])
      && (c != [] ==> s'.lastY[l] == Last(c))
      && Get(s'.directionScore, l)
         == (if c == [] then 0
             else if l in s.lastY then Get(s.directionScore, l) + Last(c) - s.lastY[l]
             else Last(c) - c[0])
  {
    CountedLabelTrack(s, frame, boxes, l);
    StepIsDecideCounted(s, frame, boxes, probe);
  }

  /** The same before the threshold test, which does not touch these maps. */
  lemma CountedLabelTrack(s: TrackState, frame: nat, boxes: seq<Detection>, l: string)
    requires Wf(s)
    ensures var s', c := Counted(s, frame, boxes), CentersOf(boxes, l);
      && (l in Detected(boxes) <==> c != [])
      && Get(s'.frameCounts, l) == (if c != [] then Get(s.frameCounts, l) + 1 else 0)
      && (l in s'.lastY <==> c != [])
      && (c != [] ==> s'.lastY[l] == Last(c))
      && Get(s'.directionScore, l)
         == (if c == [] then 0
             else if l in s.lastY then Get(s.directionScore, l) + Last(c) - s.lastY[l]
             else Last(c) - c[0])
  {
    DetectedMeans(boxes, l);
    CountedLabelCount(s, frame, boxes, l);
    CountedLabelCentre(s, frame, boxes, l);
  }

  lemma CountedLabelCount(s: TrackState, frame: nat, boxes: seq<Detection>, l: string)
    ensures Get(Counted(s, frame, boxes).frameCounts, l)
      == (if l in Detected(boxes) then Get(s.frameCounts, l) + 1 else 0)
  {
    var d := Detected(boxes);
    var s1 := ScanBoxes(s, frame, boxes);
    ResetLabel(s1, d, l);
    BumpLabel(Reset(s1, d).frameCounts, d, l);
  }

  lemma CountedLabelCentre(s: TrackState, frame: nat, boxes: seq<Detection>, l: string)
    requires Wf(s)
    ensures var s', c := Counted(s, frame, boxes), CentersOf(boxes, l);
      && (l in s'.lastY <==> c != [])
      && (c != [] ==> s'.lastY[l] == Last(c))
      && Get(s'.directionScore, l)
         == (if c == [] then 0
             else if l in s.lastY then Get(s.directionScore, l) + Last(c) - s.lastY[l]
             else Last(c) - c[0])
  {
    var d := Detected(boxes);
    var s1 := ScanBoxes(s, frame, boxes);
    DetectedMeans(boxes, l);
    ScanBoxesCenters(s, frame, boxes, l);
    assert LabelWf(s, l);
    if CentersOf(boxes, l) == [] {
      CountedLabelGone(s, frame, boxes, l);
    } else {
      CountedLabelSeen(s, frame, boxes, l);
    }
  }

  /** A label absent from the frame leaves the reset with no last centre and score 0. */
  lemma CountedLabelGone(s: TrackState, frame: nat, boxes: seq<Detection>, l: string)
    requires Wf(s) && l !in Detected(boxes)
    ensures l !in Counted(s, frame, boxes).lastY
    ensures Get(Counted(s, frame, boxes).directionScore, l) == 0
  {
    var s1 := ScanBoxes(s, frame, boxes);
    ScanBoxesFrame(s, frame, boxes);
    ResetLabel(s1, Detected(boxes), l);
    assert LabelWf(s, l);
  }

  /** A detected label goes through the reset with the centre and score the box loop gave it. */
  lemma CountedLabelSeen(s: TrackState, frame: nat, boxes: seq<Detection>, l: string)
    requires l in Detected(boxes)
    ensures var s1, s' := ScanBoxes(s, frame, boxes), Counted(s, frame, boxes);
      Lookup(s'.lastY, l) == Lookup(s1.lastY, l) && Lookup(s'.directionScore, l) == Lookup(s1.directionScore, l)
  {
    ResetLabel(ScanBoxes(s, frame, boxes), Detected(boxes), l);
  }

  /** The effect of one frame on the best area and crop of one label. */
  lemma StepLabelBest(s: TrackState, frame: nat, boxes: seq<Detection>, probe: Option<string>, l: string)
    ensures var s' := Step(s, frame, boxes, probe).state;
      && Get(s'.bestArea, l) == MaxAreaOf(Get(s.bestArea, l), boxes, l)
      && (Get(s'.bestArea, l) == Get(s.bestArea, l) ==>
            Lookup(s'.bestArea, l) == Lookup(s.bestArea, l) && Lookup(s'.bestCrop, l) == Lookup(s.bestCrop, l))
      && (Get(s'.bestArea, l) > Get(s.bestArea, l) ==>
            && l in s'.bestArea && l in s'.bestCrop && s'.bestCrop[l].frame == frame
            && s'.bestCrop[l].box.name == l && Area(s'.bestCrop[l].box) == s'.bestArea[l])
  {
    var s1 := ScanBoxes(s, frame, boxes);
    ScanBoxesArea(s, frame, boxes, l);
    ResetLabel(s1, Detected(boxes), l);
    StepIsDecideCounted(s, frame, boxes, probe);
  }

  /** A frame keeps every counted label counted and counts exactly the detected ones on top. */
  lemma StepKeepsFrameKeys(s: TrackState, frame: nat, boxes: seq<Detection>, probe: Option<string>)
    ensures Step(s, frame, boxes, probe).state.frameCounts.Keys == s.frameCounts.Keys + Detected(boxes)
  {
    var d := Detected(boxes);
    var s1 := ScanBoxes(s, frame, boxes);
    ScanBoxesFrame(s, frame, boxes);
    ResetLabel(s1, d, "");
    BumpLabel(Reset(s1, d).frameCounts, d, "");
    StepIsDecideCounted(s, frame, boxes, probe);
  }

  /** Every step keeps a reachable state well formed. */
  lemma StepKeepsWf(s: TrackState, frame: nat, boxes: seq<Detection>, probe: Option<string>)
    requires Wf(s)
    requires ValidProbe(boxes, probe)
    ensures Wf(Step(s, frame, boxes, probe).state)
  {
    var s' := Step(s, frame, boxes, probe).state;
    var d := Detected(boxes);
    var s1 := ScanBoxes(s, frame, boxes);
    ScanBoxesFrame(s, frame, boxes);
    ResetLabel(s1, d, "");
    BumpLabel(Reset(s1, d).frameCounts, d, "");
    StepIsDecideCounted(s, frame, boxes, probe);
    forall l ensures LabelWf(s', l) {
      assert LabelWf(s, l);
      StepLabelTrack(s, frame, boxes, probe, l);
      StepLabelBest(s, frame, boxes, probe, l);
      MaxAreaOfGrows(Get(s.bestArea, l), boxes, l);
    }
  }

  // ---------------------------------------------------------------------------
  // Properties of one frame
  // ---------------------------------------------------------------------------

  /**
   * A label outside APPROVED_LABELS is never detected, its count stays 0,
   * and a frame leaves its last centre, score, best area and best crop as
   * they were.
   */
  lemma UnapprovedUntouched(s: TrackState, frame: nat, boxes: seq<Detection>, probe: Option<string>, l: string)
    requires Wf(s)
    requires l !in APPROVED_LABELS
    ensures l !in Detected(boxes)
    ensures var s' := Step(s, frame, boxes, probe).state;
      && Get(s'.frameCounts, l) == 0
      && l !in s'.lastY && l !in s.lastY
      && Get(s'.directionScore, l) == Get(s.directionScore, l) == 0
      && Lookup(s'.bestArea, l) == Lookup(s.bestArea, l)
      && Lookup(s'.bestCrop, l) == Lookup(s.bestCrop, l)
  {
    DetectedMeans(boxes, l);
    assert LabelWf(s, l);
    StepLabelTrack(s, frame, boxes, probe, l);
    MaxAreaOfNone(Get(s.bestArea, l), boxes, l);
    StepLabelBest(s, frame, boxes, probe, l);
    StepKeepsFrameKeys(s, frame, boxes, probe);
  }

  /**
   * After a frame, a counted label that the frame did not show is still
   * counted, with count 0, score 0 and no last centre.
   */
  lemma AbsentLabelsReset(s: TrackState, frame: nat, boxes: seq<Detection>, probe: Option<string>, l: string)
    requires Wf(s)
    requires l in s.frameCounts && l !in Detected(boxes)
    ensures var s' := Step(s, frame, boxes, probe).state;
      && l in s'.frameCounts
      && s'.frameCounts[l] == 0
      && Get(s'.directionScore, l) == 0
      && l !in s'.lastY
  {
    StepLabelTrack(s, frame, boxes, probe, l);
    StepKeepsFrameKeys(s, frame, boxes, probe);
  }

  /**
   * The best area of a label never decreases; its crop is replaced only by
   * a box of this frame with strictly larger area; a label that the frame
   * does not show keeps both.
   */
  lemma BestCropMonotone(s: TrackState, frame: nat, boxes: seq<Detection>, probe: Option<string>, l: string)
    ensures var s' := Step(s, frame, boxes, probe).state;
      && Get(s'.bestArea, l) >= Get(s.bestArea, l)
      && (Lookup(s'.bestCrop, l) != Lookup(s.bestCrop, l) ==>
            && Get(s'.bestArea, l) > Get(s.bestArea, l)
            && l in s'.bestCrop && s'.bestCrop[l].frame == frame && Area(s'.bestCrop[l].box) == Get(s'.bestArea, l))
      && (l !in Detected(boxes) ==>
            Lookup(s'.bestArea, l) == Lookup(s.bestArea, l) && Lookup(s'.bestCrop, l) == Lookup(s.bestCrop, l))
  {
    StepLabelBest(s, frame, boxes, probe, l);
    DetectedMeans(boxes, l);
    MaxAreaOfGrows(Get(s.bestArea, l), boxes, l);
    if l !in Detected(boxes) {
      MaxAreaOfNone(Get(s.bestArea, l), boxes, l);
    }
  }

  lemma CountedConfirmed(s: TrackState, frame: nat, boxes: seq<Detection>)
    ensures Counted(s, frame, boxes).confirmed == s.confirmed
  {
    ScanBoxesFrame(s, frame, boxes);
    ResetLabel(ScanBoxes(s, frame, boxes), Detected(boxes), "");
  }

  /**
   * An add fires exactly when the probed label has been counted at least
   * FRAME_THRESHOLD times, its score exceeds DIRECTION_THRESHOLD and it is
   * not yet confirmed; afterwards it is confirmed, and the event carries the
   * label's best crop.
   */
  lemma AddFiresIff(s: TrackState, frame: nat, boxes: seq<Detection>, probe: Option<string>)
    ensures var o := Step(s, frame, boxes, probe);
      o.event.Added? <==>
        && probe.Some?
        && Get(o.state.frameCounts, probe.value) >= FRAME_THRESHOLD
        && Get(o.state.directionScore, probe.value) > DIRECTION_THRESHOLD
        && probe.value !in s.confirmed
    ensures var o := Step(s, frame, boxes, probe);
      o.event.Added? ==>
        && o.event.name == probe.value
        && o.state.confirmed == s.confirmed + {probe.value}
        && o.event.crop == Lookup(o.state.bestCrop, probe.value)
  {
    StepIsDecideCounted(s, frame, boxes, probe);
    CountedConfirmed(s, frame, boxes);
  }

  /**
   * A remove fires exactly when the probed label has been counted at least
   * FRAME_THRESHOLD times, its score is below -DIRECTION_THRESHOLD and it is
   * confirmed; afterwards it is not.
   */
  lemma RemoveFiresIff(s: TrackState, frame: nat, boxes: seq<Detection>, probe: Option<string>)
    ensures var o := Step(s, frame, boxes, probe);
      o.event.Removed? <==>
        && probe.Some?
        && Get(o.state.frameCounts, probe.value) >= FRAME_THRESHOLD
        && Get(o.state.directionScore, probe.value) < -DIRECTION_THRESHOLD
        && probe.value in s.confirmed
    ensures var o := Step(s, frame, boxes, probe);
      o.event.Removed? ==>
        && o.event.name == probe.value
        && o.state.confirmed == s.confirmed - {probe.value}
        && o.event.crop == Lookup(o.state.bestCrop, probe.value)
  {
    StepIsDecideCounted(s, frame, boxes, probe);
    CountedConfirmed(s, frame, boxes);
  }

  /**
   * The confirmed set changes by at most one label per frame, and only
   * together with the one event that names it; a frame without approved
   * detections fires nothing and leaves it as it was.
   */
  lemma ConfirmedChangesByOne(s: TrackState, frame: nat, boxes: seq<Detection>, probe: Option<string>)
    requires ValidProbe(boxes, probe)
    ensures var o := Step(s, frame, boxes, probe);
      match o.event
      case NoEvent => o.state.confirmed == s.confirmed
      case Added(l, _) => l in Detected(boxes) && l !in s.confirmed && o.state.confirmed == s.confirmed + {l}
      case Removed(l, _) => l in Detected(boxes) && l in s.confirmed && o.state.confirmed == s.confirmed - {l}
    ensures Detected(boxes) == {} ==>
      var o := Step(s, frame, boxes, probe);
      o.event == NoEvent && o.state.confirmed == s.confirmed
  {
    StepIsDecideCounted(s, frame, boxes, probe);
    CountedConfirmed(s, frame, boxes);
  }

  /** Nine counted frames, or a score of exactly plus or minus the threshold, fire nothing. */
  lemma DecideBoundary(s: TrackState, l: string)
    ensures Get(s.frameCounts, l) == FRAME_THRESHOLD - 1 ==> Decide(s, Some(l)).event == NoEvent
    ensures Get(s.directionScore, l) == DIRECTION_THRESHOLD ==> Decide(s, Some(l)).event == NoEvent
    ensures Get(s.directionScore, l) == -DIRECTION_THRESHOLD ==> Decide(s, Some(l)).event == NoEvent
  {
  }
}

=== FILE: webcam_history.dfy ===
/**
 * What the tracker's maps mean in terms of the frames seen so far.
 *
 * A label's current run is the longest suffix of the frame history in which
 * every frame shows the label. The tracker's counter for a label is the
 * length of its run, its score is the distance its box centre has moved
 * since the first box of the run, and its best area is the largest box
 * area ever seen for it (runs do not matter for the area).
 */
module TrackHistory {
  import opened Common
  import opened FrameStep

  /** The frames processed so far, each as its detections in enumeration order. */
  type History = seq<seq<Detection>>

  function Init(frames: History): History
    requires frames != []
  {
    frames[..|frames| - 1]
  }

  function LastFrame(frames: History): seq<Detection>
    requires frames != []
  {
    frames[|frames| - 1]
  }

  /** The number of consecutive frames, ending with the latest, that show `l`. */
  function RunLength(frames: History, l: string): nat {
    if frames == [] then 0
    else if CentersOf(LastFrame(frames), l) != [] then RunLength(Init(frames), l) + 1
    else 0
  }

  /** The centre of the first box of `l` in its current run. */
  function RunStart(frames: History, l: string): int
    requires RunLength(frames, l) > 0
  {
    if RunLength(Init(frames), l) == 0 then CentersOf(LastFrame(frames), l)[0]
    else RunStart(Init(frames), l)
  }

  /** The centre of the last box of `l` in the latest frame. */
  function LastCenter(frames: History, l: string): int
    requires RunLength(frames, l) > 0
  {
    Last(CentersOf(LastFrame(frames), l))
  }

  /** How far the centre of `l` has moved during its current run (0 outside a run). */
  function Displacement(frames: History, l: string): int {
    if RunLength(frames, l) > 0 then LastCenter(frames, l) - RunStart(frames, l) else 0
  }

  /** The largest area of any approved box of `l` ever seen, or 0. */
  function MaxArea(frames: History, l: string): int {
    if frames == [] then 0 else MaxAreaOf(MaxArea(Init(frames), l), LastFrame(frames), l)
  }

  /** The tracker's entries for `l` agree with the history. */
  ghost predicate LabelConsistent(s: TrackState, frames: History, l: string) {
    && Get(s.frameCounts, l) == RunLength(frames, l)
    && Get(s.directionScore, l) == Displacement(frames, l)
    && (RunLength(frames, l) > 0 ==> l in s.lastY && s.lastY[l] == LastCenter(frames, l))
    && Get(s.bestArea, l) == MaxArea(frames, l)
  }

  ghost predicate Consistent(s: TrackState, frames: History) {
    Wf(s) && forall l :: LabelConsistent(s, frames, l)
  }

  lemma InitialConsistent()
    ensures Consistent(Initial(), [])
  {
    InitialWf();
    forall l ensures LabelConsistent(Initial(), [], l) { }
  }

  /** Processing a frame keeps the tracker's maps in agreement with the history extended by that frame. */
  lemma StepConsistent(s: TrackState, frames: History, frame: nat, boxes: seq<Detection>, probe: Option<string>)
    requires Consistent(s, frames)
    requires ValidProbe(boxes, probe)
    ensures Consistent(Step(s, frame, boxes, probe).state, frames + [boxes])
  {
    var s' := Step(s, frame, boxes, probe).state;
    var fs := frames + [boxes];
    assert Init(fs) == frames;
    assert LastFrame(fs) == boxes;
    StepKeepsWf(s, frame, boxes, probe);
    forall l ensures LabelConsistent(s', fs, l) {
      assert LabelConsistent(s, frames, l);
      assert LabelWf(s, l);
      StepLabelTrack(s, frame, boxes, probe, l);
      StepLabelBest(s, frame, boxes, probe, l);
    }
  }

  /**
   * With the history in view: an add fires exactly when the probed label
   * has been seen in at least FRAME_THRESHOLD consecutive frames ending with
   * this one, its centre has moved down by more than DIRECTION_THRESHOLD
   * pixels since the first box of that run, and it is not confirmed.
   */
  lemma AddFiresOnRun(s: TrackState, frames: History, frame: nat, boxes: seq<Detection>, probe: Option<string>)
    requires Consistent(s, frames)
    requires ValidProbe(boxes, probe)
    ensures Step(s, frame, boxes, probe).event.Added? <==>
      && probe.Some?
      && RunLength(frames + [boxes], probe.value) >= FRAME_THRESHOLD
      && Displacement(frames + [boxes], probe.value) > DIRECTION_THRESHOLD
      && probe.value !in s.confirmed
  {
    StepConsistent(s, frames, frame, boxes, probe);
    AddFiresIff(s, frame, boxes, probe);
    if probe.Some? {
      assert LabelConsistent(Step(s, frame, boxes, probe).state, frames + [boxes], probe.value);
    }
  }

  /**
   * With the history in view: a remove fires exactly when the probed label
   * has been seen in at least FRAME_THRESHOLD consecutive frames ending with
   * this one, its centre has moved up by more than DIRECTION_THRESHOLD
   * pixels since the first box of that run, and it is confirmed.
   */
  lemma RemoveFiresOnRun(s: TrackState, frames: History, frame: nat, boxes: seq<Detection>, probe: Option<string>)
    requires Consistent(s, frames)
    requires ValidProbe(boxes, probe)
    ensures Step(s, frame, boxes, probe).event.Removed? <==>
      && probe.Some?
      && RunLength(frames + [boxes], probe.value) >= FRAME_THRESHOLD
      && Displacement(frames + [boxes], probe.value) < -DIRECTION_THRESHOLD
      && probe.value in s.confirmed
  {
    StepConsistent(s, frames, frame, boxes, probe);
    RemoveFiresIff(s, frame, boxes, probe);
    if probe.Some? {
      assert LabelConsistent(Step(s, frame, boxes, probe).state, frames + [boxes], probe.value);
    }
  }
}
